=== FILE: README.md ===
# SemanticSearch: page-marker chunker, result assembly, load cache and file naming

SemanticSearch splits a book into page-tagged chunks, embeds them and stores
them in a vector index. It then answers free-text queries with the closest
chunks. A desktop window drives both steps. Most of the program is glue
around the embedding service, the vector index and the window toolkit. This
project models the pure logic inside it and proves properties of that logic:

- **Pages** (`pages.dfy`): the lexer. `re.split(r"(\[P\.\d+\])", content)`
  cuts the document into text pieces alternating with `[P.<digits>]` markers.
  `re.match(r"\[P\.(\d+)\]", piece)` recognises a marker, and `int()` reads
  its page number.
- **Chunker** (`chunker.dfy`): the fold of `load_book_with_pages`. Its state
  is `current_page`, `buffer` and `results`; it emits `{page, text}`
  records. The fold is proved equal to a segment-by-segment reference
  definition (`Reference`), and the document-level properties are derived
  from that reference.
- **Text** (`text.dfy`): the Python string operations involved: `isspace`,
  `strip`, `"".join`, `endswith` and `replace`, with the substring search
  `replace` performs.
- **Retrieval** (`retrieval.dfy`): the loop that turns the ids returned by
  the vector index into metadata entries. It uses Python list indexing,
  including negative indices and `IndexError`.
- **LoadCache** (`load_cache.dfy`): the two path-keyed caches of the search
  module, the get-or-load step, `clear_cache`, and a search composed from
  them.
- **IndexFiles** (`index_files.dfy`): the front end's file conventions and
  checks. These cover:
  - where a build writes `<name>.index` and `<name>_meta.json`;
  - how the search side derives the metadata path with
    `replace('.index', '_meta.json')`;
  - the `.index` filter on the directory listing and the default selection;
  - the input checks before a search or a build starts.
- **Results** (`results.dfy`): `Option` and `Result`.

Python's exceptions are modelled as `Failure` values.

Some behaviours of the code are easy to miss, and the model states them as
they are:

- Text before the first marker is kept. It is prepended to the first chunk
  whose page is non-zero (`Chunker.IntroOpensFirstChunk`).
- A page whose text is blank after trimming still produces a chunk with
  empty text (`Chunker.BlankPageEmptyText`: `"[P.5]   "` gives
  `[Chunk(5, "")]`).
- A negative id from the vector index passes the `idx < len(chunks)` check
  and is read with Python's negative indexing (`Retrieval.CollectResults`).
- When the metadata read fails, the index read just before it stays cached
  (`LoadCache.MetadataFailureKeepsIndex`).
- A marker with more than 4300 digits makes `int()` raise `ValueError`
  under CPython's default limit, so the whole load raises
  (`Chunker.LoadBook`, `Chunker.OverlongMarkerRaises`).

## Model

| member | source | states |
|---|---|---|
| Text.Strip | main.py:27 | `strip()` leaves no whitespace at either end, is empty exactly when the input is all whitespace, and never lengthens the input |
| Text.StripIsInfix | main.py:27 | the stripped text is a contiguous part of the input, with only whitespace cut off on each side |
| Text.StripIdempotent | main.py:27 | stripping twice is stripping once |
| Text.Concat | main.py:27 | `"".join` of an empty list is the empty string |
| Text.ConcatSpec | main.py:27 | `"".join` is empty exactly when every piece is empty; otherwise it starts with the first piece and ends with the last |
| Text.ConcatAppend | main.py:27 | `"".join` of two lists of pieces is the join of the first list followed by the join of the second |
| Text.ReplaceAll | gui_app.py:165 | `replace` with a replacement at least as long as the pattern never shortens the string, and with one at most as long never lengthens it |
| Text.ReplaceAllAbsent | gui_app.py:165 | `replace` leaves a string without an occurrence of the pattern unchanged |
| Text.ReplaceAllAtFirst | gui_app.py:165 | `replace` rewrites the leftmost occurrence and resumes scanning right after it, so occurrences are replaced left to right and never overlap |
| Text.ReplaceAllSkipsPrefix | gui_app.py:165 | a prefix that lacks the pattern's first character passes through `replace` unchanged |
| Text.ReplaceAllSuffix | gui_app.py:165 | if the pattern repeats its first character nowhere and `x` holds no occurrence, then `x + pat` becomes `x + rep`: no occurrence can straddle the join |
| Text.EndsWith | gui_app.py:124 | `s.endswith(suffix)` holds exactly when `s` is some string followed by `suffix` |
| Text.FirstOccurrence | gui_app.py:165 | a string that contains the pattern has a leftmost occurrence |
| Pages.DigitRun | main.py:15 | `\d+` takes the longest run of digits at the front |
| Pages.MarkerLen | main.py:15 | a marker match at the front of the input is a `[P.<digits>]` prefix |
| Pages.MarkerLenExact | main.py:15 | every `[P.<digits>]` prefix is found, with its exact length |
| Pages.MatchMarker | main.py:21 | `re.match` anchors at the start of the piece and returns the digits of a `[P.<digits>]` prefix |
| Pages.MatchMarkerNone | main.py:21 | `re.match` fails exactly when no prefix of the piece is a marker |
| Pages.SplitFrom | main.py:15 | the left-to-right scan always yields an odd number of pieces |
| Pages.Split | main.py:15 | `re.split` with one capturing group returns an odd number of pieces |
| Pages.SplitWellSplit | main.py:15 | `re.split` returns an odd number of pieces whose join is the document; the odd positions are markers and the even positions are texts with no marker inside |
| Pages.SplitUnique | main.py:15 | `re.split` returns the only such alternating decomposition of the document |
| Pages.SplitMarkerFree | main.py:15 | the split is the single piece `[content]` exactly when the document contains no marker |
| Pages.SplitFromWellSplit | main.py:15 | the left-to-right scan of the split keeps the alternating decomposition of the text it has consumed |
| Pages.ParseInt | main.py:30 | `int()` of a digit string raises `ValueError` exactly when it has more than 4300 digits; otherwise it returns a number below `10^k` for `k` digits, 0 exactly when every digit is `0` |
| Pages.DecimalValueBound | main.py:30 | `k` digits spell a number below `10^k` |
| Pages.DecimalRoundTrip | main.py:30 | the digits of `str(n)` spell `n`; `int()` reads them back as `n` exactly when `n < 10^4300` and raises otherwise |
| Pages.LeadingZero | main.py:30 | a leading `0` does not change the value the digits spell, but it counts towards the 4300-digit limit: with it, `int()` raises exactly when the other digits already reach the limit, and otherwise returns what it returns without it |
| Pages.ZeroValue | main.py:24-30 | the digits spell 0 (a falsy page) exactly when every digit is `0` |
| Pages.PageValue | main.py:21-30 | a piece the marker pattern does not match has page 0; a marker's page is 0 exactly when all its digits are `0` |
| Pages.MarkerTextMatches | main.py:21-30 | `re.match` matches the whole marker `[P.<ds>]` with `ds` as its group, and the page is the value of `ds` |
| Pages.MarkerRoundTrip | main.py:21-30 | the marker written for page `n` is matched with the digits of `str(n)` and its page is `n`; `int()` accepts those digits exactly when `n < 10^4300` |
| Chunker.Flushed | main.py:25-28 | a flushed record has a non-zero page and text with no whitespace at either end |
| Chunker.Step | main.py:20-32 | one iteration keeps the earlier records and appends at most one |
| Chunker.Run | main.py:20-32 | the loop only ever extends `results` |
| Chunker.Finish | main.py:34-38 | the final flush keeps the records and appends one exactly when a non-zero page is open with a non-empty buffer |
| Chunker.StepSpec | main.py:20-32 | one step of the loop:<br>- appends at most one record and never changes the earlier ones;<br>- appends exactly when a marker arrives while a non-zero page is open with a non-empty buffer;<br>- empties the buffer when it appends;<br>- otherwise only extends the buffer;<br>- keeps every record well formed |
| Chunker.RunSpec | main.py:17-32 | the loop only extends `results` and keeps every record well formed |
| Chunker.RunMatchesReference | main.py:20-38 | from any state whose buffer is non-empty once a page is set (zero or not), the loop over alternating marker/text pairs followed by the final flush produces the reference chunks for those segments |
| Chunker.LoadPiecesMatchesReference | main.py:17-38 | the fold over a lexed piece list equals the reference on its first text and the segments after it |
| Chunker.LoadBookMatchesReference | main.py:7-40 | when no marker has more than 4300 digits, `load_book_with_pages` equals the reference on the document's intro text and its (page, text) segments |
| Chunker.LoadBookOfSplit | main.py:15-40 | when no marker has more than 4300 digits, for any alternating decomposition of the document, the result is the reference on that decomposition |
| Chunker.LoadBookWithPages | main.py:17-40 | when no marker exceeds the digit limit, every returned record has a non-zero page and text with no whitespace at either end |
| Chunker.StepChecked | main.py:21-32 | an iteration raises `ValueError` exactly on a marker with more than 4300 digits, reporting its digit count; otherwise it is the iteration without the limit |
| Chunker.RunChecked | main.py:20-32 | the loop raises only when some piece is a marker over the digit limit; when it completes, it ends in the state of the loop without the limit |
| Chunker.StepCheckedSpec | main.py:21-32 | an iteration raises exactly on a marker with more than 4300 digits, and otherwise is the iteration without the limit |
| Chunker.RunCheckedSpec | main.py:20-32 | the loop raises exactly when some piece is a marker over the digit limit, with the error of the first such marker; otherwise it ends in the state of the loop without the limit |
| Chunker.LoadBook | main.py:7-40 | `load_book_with_pages` raises exactly when some marker of the document has more than 4300 digits; otherwise it returns well-formed records, the ones `LoadBookWithPages` gives |
| Chunker.OverlongMarkerRaises | main.py:15-30 | a document whose one marker has more than 4300 digits (such as `[P.` followed by 4301 ones, then `]x`) raises `ValueError` |
| Chunker.Reference | main.py:20-38 | the reference definition yields at most one record per segment |
| Chunker.ReferencePages | main.py:24-34 | the pages of the records are the non-zero marker values, in marker order |
| Chunker.ReferenceWellFormed | main.py:24-38 | the reference only produces well-formed records |
| Chunker.ChunkPagesAreNonZeroMarkers | main.py:20-38 | when no marker has more than 4300 digits, there is one record per non-zero marker, in marker order, with duplicate page numbers kept apart |
| Chunker.NoMarkerNoChunks | main.py:18-34 | a document with no marker yields no records |
| Chunker.IntroOpensFirstChunk | main.py:18-32 | when no marker has more than 4300 digits, text before the first marker is prepended to the first page's text, when that page is non-zero |
| Chunker.ZeroPageCarried | main.py:24-30 | the text after a `[P.0]` marker is carried into the next non-zero page's record |
| Chunker.TrailingZeroDropped | main.py:34 | a final `[P.0]` segment adds nothing |
| Chunker.BlankPageEmptyText | main.py:24-38 | a non-zero page whose text is all whitespace still yields a record, with empty text |
| Chunker.BufferNonEmptyAtMarker | main.py:24-32 | from the second marker on, a page is set (possibly page 0) and the buffer is non-empty whenever a marker arrives |
| Chunker.RunAppend | main.py:20-32 | running the loop over `a + b` is running it over `a` and then over `b` |
| Chunker.OnePage | main.py:7-40 | when no marker has more than 4300 digits, `intro + [P.<ds>] + text` yields the reference for one segment whose page is the value of `ds` |
| Chunker.TwoPages | main.py:7-40 | when no marker has more than 4300 digits, a document with two markers yields the reference for its two segments |
| Chunker.IntroExample | main.py:18-32 | `"intro[P.1]hello"` yields `[Chunk(1, "introhello")]` |
| Chunker.BlankPageExample | main.py:24-38 | `"[P.5]   "` yields `[Chunk(5, "")]` |
| Chunker.LeadingZeroExample | main.py:30 | `"[P.007]x"` yields `[Chunk(7, "x")]` |
| Chunker.ZeroPageDocument | main.py:24-30 | when no marker has more than 4300 digits, with `[P.0]` before page `n`, the intro, the `[P.0]` text and page `n`'s text together form page `n`'s single record |
| Chunker.TrailingZeroDocument | main.py:34 | when no marker has more than 4300 digits, text after a final `[P.0]` is dropped |
| Chunker.RepeatedPageDocument | main.py:20-38 | when no marker has more than 4300 digits, two markers with the same page number give two separate records |
| Retrieval.PyIndex | search.py:44-45 | list indexing succeeds exactly for `-len <= i < len`, returning element `i` for `i >= 0` and element `len + i` for a negative `i`; otherwise it raises `IndexError(i)` |
| Retrieval.Pick | search.py:44-45 | one id contributes:<br>- `chunks[idx]` when in range;<br>- nothing, with no error, at or past the end;<br>- `chunks[len + idx]` from `-len` to `-1`;<br>- an `IndexError` below `-len` |
| Retrieval.CollectResults | search.py:42-45 | the loop fails exactly when some id is below `-len(chunks)`; otherwise it returns at most one result per id |
| Retrieval.CollectedFails | search.py:42-45 | the error is raised by the first id below `-len(chunks)` |
| Retrieval.CollectedAppend | search.py:42-45 | results keep the order of the ids: the results for `a + b` are those for `a` followed by those for `b` |
| Retrieval.CollectedFailureStays | search.py:42-45 | once an id raises, later ids change nothing |
| Retrieval.CollectedLength | search.py:42-45 | there is at most one result per id |
| Retrieval.CollectedSingle | search.py:42-45 | the loop over one id is that id's pick |
| Retrieval.PaddingAppendsLast | search.py:42-45 | a padding id `-1` appends the last chunk |
| Retrieval.PaddingRepeatsLast | search.py:42-45 | the last chunk's id followed by padding puts the last chunk in the results twice |
| Retrieval.PaddingOnEmptyRaises | search.py:42-45 | with empty metadata the padding id `-1` raises `IndexError` |
| LoadCache.Clear | search.py:91-94 | `clear_cache` empties both maps |
| LoadCache.Load | search.py:23-33 | the loading step never replaces or removes a cached entry; on success both paths are cached and the pair returned is what the caches hold for them |
| LoadCache.LoadReads | search.py:23-27 | a file is read exactly when its path is not cached (the metadata only once the index is available), and nothing else is read |
| LoadCache.LoadExtends | search.py:23-27 | a load never replaces or removes an entry, and adds only its own two paths |
| LoadCache.LoadFails | search.py:23-27 | a load fails exactly when a path is neither cached nor readable; the index is tried first |
| LoadCache.LoadValues | search.py:23-33 | on success the pair returned is what the caches hold for the two paths: the cached value if there was one, otherwise what was read |
| LoadCache.CachedIgnoresDisk | search.py:23-33 | with both paths cached, nothing is read, nothing changes, and the cached values are returned even if the files have changed |
| LoadCache.SecondLoadReadsNothing | search.py:23-33 | after a successful load, loading the same paths again reads nothing and returns the same values |
| LoadCache.MetadataFailureKeepsIndex | search.py:23-27 | the index is stored before the metadata is read; a failed metadata read leaves the index cached and the metadata cache unchanged |
| LoadCache.IndexFailureChangesNothing | search.py:23-25 | a failed index read leaves both caches unchanged |
| LoadCache.ClearForcesReload | search.py:91-94 | after `clear_cache`, when the index file is readable, the next load reads both files again |
| LoadCache.EntriesPersist | search.py:23-27 | across any number of searches, with the files changing in between, a stored entry keeps its value until the caches are cleared |
| LoadCache.SearchWithCache | search.py:18-45 | a search changes the caches and reads the files only through its loading step; it fails with a load error exactly when the loading step fails, and with a query error exactly when the load succeeds but embedding the query or searching the index raises; on success the query gave ids and it returns at most one result per id |
| LoadCache.SearchUsesCache | search.py:23-45 | after a successful load, a search queries the cached index and assembles its results from the cached chunk list; an exception from the embedding call or the index search is the search's error, and it, like an `IndexError` in the assembly, leaves both files cached |
| LoadCache.RepeatedSearchIsStable | search.py:23-45 | repeating a search whose query has the same outcome (the same ids, or the same exception) reads nothing and returns the same results, even if the files have changed |
| IndexFiles.JoinPath | gui_app.py:164 | POSIX `os.path.join`: an absolute name replaces the directory; otherwise the result is the directory followed by the name, with a `/` between them unless the directory is empty or already ends in `/` |
| IndexFiles.IndexPathFor | gui_app.py:321 | the build writes the index to a path ending in `<name>.index`, namely `embedding_files/<name>.index` unless the name is absolute |
| IndexFiles.MetaPathFor | gui_app.py:322 | the build writes the metadata to a path ending in `<name>_meta.json`, namely `embedding_files/<name>_meta.json` unless the name is absolute |
| IndexFiles.DeriveMetaPath | gui_app.py:165 | a path without `.index` is its own derived metadata path, and the derived path is never shorter than the index path |
| IndexFiles.PathsShareDirectory | gui_app.py:321-322 | the index and metadata paths of a name share one directory prefix |
| IndexFiles.MetaPathRoundTrip | gui_app.py:164-165 | deriving the metadata path from the built index path gives the built metadata path exactly when the name does not contain `.index` |
| IndexFiles.DottedNameDiffers | gui_app.py:164-165 | when the name contains `.index`, the derived metadata path differs from the one the build writes |
| IndexFiles.DottedNameMisses | gui_app.py:164-165 | for the name `a.index` the derived metadata path differs from the one the build writes |
| IndexFiles.IndexEntries | gui_app.py:122-125 | the filter never lengthens the listing |
| IndexFiles.IndexEntriesMembers | gui_app.py:122-125 | the listing keeps exactly the entries ending in `.index` |
| IndexFiles.IndexEntriesAppend | gui_app.py:122-125 | the filter keeps listing order: filtering `a + b` gives the filtered `a` followed by the filtered `b` |
| IndexFiles.Refresh | gui_app.py:117-129 | a missing directory changes nothing; otherwise the `.index` entries become the choices and, when there are any, the first becomes the selection, which is kept otherwise |
| IndexFiles.RefreshSelects | gui_app.py:122-129 | after a refresh that found index files, the selection is a listed entry ending in `.index`; refreshing again with the same listing changes nothing |
| IndexFiles.PlanSearch | gui_app.py:148-177 | a search is refused when:<br>- the query is all whitespace;<br>- no index is selected;<br>- the derived metadata file does not exist.<br>Otherwise it runs with the stripped query and the joined and derived paths |
| IndexFiles.PlanBuild | gui_app.py:300-322 | a build is refused when the file path is empty or the name is all whitespace, and when the file does not exist; otherwise it uses the stripped name and writes to the name's index and metadata paths |
| IndexFiles.BuildThenSearch | gui_app.py:164-177 | after a build, searching its index file finds the metadata the build wrote exactly when the name does not contain `.index` |

## Left out

- Reading the book file, the metadata JSON and the vector index. File contents are function inputs; the cache reads from a `Disk` map in which an absent path stands for any failing read (missing file, corrupt JSON, unreadable index).
- The text the chunker receives is what `f.read()` returns for a UTF-8 file opened in text mode: decoding and universal-newline translation happen before the model's input, and a decoding error is not modelled.
- Chunker.LoadBookWithPages: it and the lemmas stated on it describe the records returned when no marker exceeds the digit limit; `Chunker.LoadBook` adds the `ValueError` and says exactly when it is raised.
- The 4300-digit limit on `int()` is CPython's default since 3.11 and the 3.7-3.10 security releases. A different limit set with `sys.set_int_max_str_digits` or `PYTHONINTMAXSTRDIGITS`, or an older interpreter without a limit, is not modelled.
- Digits: `\d` and `int()` also accept non-ASCII decimal digits, but the model restricts digits to ASCII `0`-`9`.
- `os.path.join` is modelled for POSIX paths only.
- Path keys are compared as plain strings, as the dictionaries do. No path normalisation is modelled.
- Embedding the query with the external embedding service, and counting tokens: a network call and a foreign library.
  - Embedding the query and the vector index's search are the `hits` parameter of `LoadCache.SearchWithCache`: for the loaded index it gives either the result ids, an arbitrary `seq<int>`, or the exception one of the two calls raised (`EmbeddingFailed`, `IndexSearchFailed`). `top_k` only affects that parameter.
- Console output: the `print` diagnostics of the search module (load, search and total times, result count, cost, token count) are output only and change no state.
- The cost figure (`token_count / 1000 * 0.00002`) and every `time.time()` measurement: floating point and the wall clock.
- Writing the index and metadata files during a build (`build_faiss_index`), and the embedding calls behind it: foreign library and file I/O.
  - `IndexFiles.PlanBuild` stops where the build starts. `IndexFiles.BuildThenSearch` takes the written metadata path as the one file present.
- The window toolkit:
  - widgets, dialogs and message boxes;
  - worker threads and `after` callbacks;
  - the status bar text, including the count of index files found;
  - result display.

  These are UI and concurrency; every refusal is modelled as a `Failure` value instead of a message box.
- The exception handler in `load_available_files` (for example `os.listdir` raising): an I/O failure.
- Concurrent searches racing on a cold cache: the model runs events one at a time.
- The `__main__` blocks of the chunker and the window: command-line and process entry points.

=== FILE: chunker.dfy ===
/** `load_book_with_pages`: the document is split at page markers and a loop
    with state (current page, buffer of text pieces) turns the pieces into
    `{page, text}` records. File reading is left out; the document text is
    the input. */
module Chunker {
  import opened Results
  import opened Text
  import opened Pages

  /** One `{"page": ..., "text": ...}` record. */
  datatype Chunk = Chunk(page: nat, text: string)

  /** The loop's variables: `current_page`, `buffer` and `results`. */
  datatype Fold = Fold(current: Option<nat>, buffer: seq<string>, results: seq<Chunk>)

  /** Before the loop: no page seen yet, nothing buffered, no records. */
  const Start: Fold := Fold(None, [], [])

  /** Every record names a non-zero page and has text without whitespace at
      either end. */
  predicate WellFormed(chunks: seq<Chunk>) {
    forall i :: 0 <= i < |chunks| ==> chunks[i].page > 0 && NoEdgeSpace(chunks[i].text)
  }

  /** The guard `if current_page and buffer`: page `0` and `None` are falsy,
      and so is an empty list, but a list holding only empty strings is not. */
  predicate Flushes(st: Fold) {
    st.current.Some? && st.current.value != 0 && st.buffer != []
  }

  /** The record that flushing the buffer appends. */
  function Flushed(st: Fold): (c: Chunk)
    requires Flushes(st)
    ensures c.page > 0 && NoEdgeSpace(c.text)
  {
    Chunk(st.current.value, Strip(Concat(st.buffer)))
  }

  /** One iteration of the loop over the pieces. */
  function Step(st: Fold, piece: string): (r: Fold)
    ensures st.results <= r.results && |r.results| <= |st.results| + 1
  {
    if MatchMarker(piece).Some? then
      var page := PageValue(piece);
      if Flushes(st) then
        Fold(Some(page), [], st.results + [Flushed(st)])
      else
        st.(current := Some(page))
    else
      st.(buffer := st.buffer + [piece])
  }

  /** A step appends at most one record, and does so exactly when a marker
      meets a truthy page and a non-empty buffer; the buffer is emptied only
      by that flush and otherwise only grows; records stay well formed. */
  lemma StepSpec(st: Fold, piece: string)
    ensures var st' := Step(st, piece);
            && st.results <= st'.results && |st'.results| <= |st.results| + 1
            && (|st'.results| > |st.results| <==> MatchMarker(piece).Some? && Flushes(st))
            && (|st'.results| > |st.results| ==> st'.buffer == [])
            && (|st'.results| == |st.results| ==> st.buffer <= st'.buffer)
            && (WellFormed(st.results) ==> WellFormed(st'.results))
  {
  }

  /** The whole loop. */
  function Run(st: Fold, pieces: seq<string>): (r: Fold)
    ensures st.results <= r.results
    decreases |pieces|
  {
    if pieces == [] then st else Run(Step(st, pieces[0]), pieces[1..])
  }

  /** The loop only appends records, and they stay well formed. */
  lemma {:induction false} RunSpec(st: Fold, pieces: seq<string>)
    ensures st.results <= Run(st, pieces).results
    ensures WellFormed(st.results) ==> WellFormed(Run(st, pieces).results)
    decreases |pieces|
  {
    if pieces != [] {
      StepSpec(st, pieces[0]);
      RunSpec(Step(st, pieces[0]), pieces[1..]);
    }
  }

  /** The flush after the loop. */
  function Finish(st: Fold): (r: seq<Chunk>)
    ensures st.results <= r && |r| <= |st.results| + 1
    ensures |r| > |st.results| <==> Flushes(st)
  {
    if Flushes(st) then st.results + [Flushed(st)] else st.results
  }

  /** The records `load_book_with_pages` returns for the document's text when
      no marker has more digits than `int()` accepts; `LoadBook` below adds
      that error. */
  function LoadBookWithPages(content: string): (r: seq<Chunk>)
    ensures WellFormed(r)
  {
    var st := Run(Start, Split(content));
    RunSpec(Start, Split(content));
    if Flushes(st) then
      var c := Flushed(st);
      assert forall i :: 0 <= i < |st.results| ==> (st.results + [c])[i] == st.results[i];
      st.results + [c]
    else st.results
  }

  // ---------------------------------------------------------------------
  // The digit cap of `int()`: a marker with too many digits raises

  /** A piece whose digits `int()` refuses. */
  predicate Overlong(piece: string) {
    MatchMarker(piece).Some? && |MatchMarker(piece).value| > IntMaxStrDigits
  }

  /** One iteration, with the conversion of a marker's digits able to raise. */
  function StepChecked(st: Fold, piece: string): (r: Result<Fold, ValueError>)
    ensures r.Failure? <==> Overlong(piece)
    ensures r.Failure? ==> r.error == TooManyDigits(|MatchMarker(piece).value|)
    ensures r.Success? ==> r.value == Step(st, piece)
  {
    match MatchMarker(piece)
    case None => Success(Step(st, piece))
    case Some(digits) =>
      match ParseInt(digits)
      case Failure(e) => Failure(e)
      case Success(_) => Success(Step(st, piece))
  }

  /** A step raises exactly on an overlong marker; otherwise it is the step
      without the cap. */
  lemma StepCheckedSpec(st: Fold, piece: string)
    ensures StepChecked(st, piece) ==
            if Overlong(piece) then Failure(TooManyDigits(|MatchMarker(piece).value|))
            else Success(Step(st, piece))
  {
  }

  /** The whole loop, ended by the first error. */
  function RunChecked(st: Fold, pieces: seq<string>): (r: Result<Fold, ValueError>)
    ensures r.Success? ==> r.value == Run(st, pieces)
    ensures r.Failure? ==> exists k :: 0 <= k < |pieces| && Overlong(pieces[k])
    decreases |pieces|
  {
    if pieces == [] then Success(st)
    else
      match StepChecked(st, pieces[0])
      case Failure(e) => Failure(e)
      case Success(next) => RunChecked(next, pieces[1..])
  }

  /** The loop raises exactly when some piece is overlong, and then for the
      first such piece; otherwise it ends where the loop without the cap
      does. */
  lemma {:induction false} RunCheckedSpec(st: Fold, pieces: seq<string>)
    ensures RunChecked(st, pieces).Success? <==> forall k :: 0 <= k < |pieces| ==> !Overlong(pieces[k])
    ensures RunChecked(st, pieces).Success? ==> RunChecked(st, pieces).value == Run(st, pieces)
    ensures RunChecked(st, pieces).Failure? ==>
              exists k :: && 0 <= k < |pieces| && Overlong(pieces[k])
                          && RunChecked(st, pieces).error == TooManyDigits(|MatchMarker(pieces[k]).value|)
                          && forall j :: 0 <= j < k ==> !Overlong(pieces[j])
    decreases |pieces|
  {
    if pieces != [] {
      var rest := pieces[1..];
      StepCheckedSpec(st, pieces[0]);
      assert forall k :: 1 <= k < |pieces| ==> pieces[k] == rest[k - 1];
      if !Overlong(pieces[0]) {
        RunCheckedSpec(Step(st, pieces[0]), rest);
        if RunChecked(st, pieces).Failure? {
          var k :| && 0 <= k < |rest| && Overlong(rest[k])
                   && RunChecked(st, pieces).error == TooManyDigits(|MatchMarker(rest[k]).value|)
                   && forall j :: 0 <= j < k ==> !Overlong(rest[j]);
          assert pieces[k + 1] == rest[k];
        }
      }
    }
  }

  /** `load_book_with_pages` on the document's text: it raises exactly when
      a marker of the document has more digits than the cap, for the first
      such marker, and otherwise returns the records of `LoadBookWithPages`,
      each with a non-zero page and stripped text. */
  function LoadBook(content: string): (r: Result<seq<Chunk>, ValueError>)
    ensures var pieces := Split(content);
            r.Failure? <==> exists k :: 0 <= k < |pieces| && Overlong(pieces[k])
    ensures r.Success? ==> r.value == LoadBookWithPages(content) && WellFormed(r.value)
  {
    RunCheckedSpec(Start, Split(content));
    match RunChecked(Start, Split(content))
    case Failure(e) => Failure(e)
    case Success(st) => Success(Finish(st))
  }

  // ---------------------------------------------------------------------
  // A reference definition: the document as a list of marked segments

  /** A marker's page and the text between it and the next marker. */
  datatype Segment = Segment(page: nat, text: string)

  /** Pairs each marker piece of `tail` (marker, text, marker, text, ...)
      with the text piece after it. */
  function Segments(tail: seq<string>): (segs: seq<Segment>)
    requires |tail| % 2 == 0
    ensures |segs| == |tail| / 2
  {
    if tail == [] then [] else [Segment(PageValue(tail[0]), tail[1])] + Segments(tail[2..])
  }

  /** The text before a document's first marker. */
  function Intro(content: string): string {
    Split(content)[0]
  }

  /** The marked segments of a document, in order. */
  function DocumentSegments(content: string): seq<Segment> {
    Segments(Split(content)[1..])
  }

  /** What the loop computes, stated segment by segment: every segment with a
      non-zero page yields one record whose text is its own text, preceded by
      `carry`, the texts that no record has taken yet (the text before the
      first marker and the text of page-0 segments), stripped. Page-0
      segments yield nothing and pass their text on. */
  function Reference(carry: string, segs: seq<Segment>): (r: seq<Chunk>)
    ensures |r| <= |segs|
    decreases |segs|
  {
    if segs == [] then []
    else if segs[0].page != 0 then
      [Chunk(segs[0].page, Strip(carry + segs[0].text))] + Reference("", segs[1..])
    else
      Reference(carry + segs[0].text, segs[1..])
  }

  function PageNumbers(chunks: seq<Chunk>): (pages: seq<nat>)
    ensures |pages| == |chunks|
    ensures forall i :: 0 <= i < |chunks| ==> pages[i] == chunks[i].page
  {
    if chunks == [] then [] else [chunks[0].page] + PageNumbers(chunks[1..])
  }

  /** The non-zero pages of the segments, in order, duplicates kept. */
  function NonZeroPages(segs: seq<Segment>): seq<nat> {
    if segs == [] then []
    else if segs[0].page != 0 then [segs[0].page] + NonZeroPages(segs[1..])
    else NonZeroPages(segs[1..])
  }

  /** The pieces after the first alternate marker, text, marker, text, ... */
  predicate Alternating(tail: seq<string>) {
    && |tail| % 2 == 0
    && (forall j :: 0 <= j < |tail| && j % 2 == 0 ==> MatchMarker(tail[j]).Some?)
    && (forall j :: 0 <= j < |tail| && j % 2 == 1 ==> MatchMarker(tail[j]).None?)
  }

  /** A page is open and will be flushed: `current_page` is truthy. */
  predicate OpenPage(st: Fold) {
    st.current.Some? && st.current.value != 0
  }

  /** A marker piece flushes an open page with a non-empty buffer, then
      opens the marker's page. */
  lemma StepMarker(st: Fold, m: string)
    requires MatchMarker(m).Some?
    ensures Step(st, m) == if Flushes(st)
                           then Fold(Some(PageValue(m)), [], st.results + [Flushed(st)])
                           else Fold(Some(PageValue(m)), st.buffer, st.results)
  {
  }

  /** A text piece is appended to the buffer. */
  lemma StepText(st: Fold, t: string)
    requires MatchMarker(t).None?
    ensures Step(st, t) == Fold(st.current, st.buffer + [t], st.results)
  {
  }

  lemma RunPair(st: Fold, tail: seq<string>)
    requires |tail| >= 2
    ensures Run(st, tail) == Run(Step(Step(st, tail[0]), tail[1]), tail[2..])
  {
    assert tail[1..][0] == tail[1] && tail[1..][1..] == tail[2..];
  }

  /** The loop state is consistent: once a page is set, the buffer is not
      empty (a marker is always followed by a text piece). */
  predicate Consistent(st: Fold) {
    st.current.Some? ==> st.buffer != []
  }

  /** The records a consistent state will end with if the segments `segs`
      follow, according to the reference: the open page's record, then the
      reference of `segs`; or, without an open page, the reference of `segs`
      with the buffer as carried text. */
  function Expected(st: Fold, segs: seq<Segment>): seq<Chunk>
    requires Consistent(st)
  {
    st.results + (if OpenPage(st) then [Flushed(st)] + Reference("", segs)
                  else Reference(Concat(st.buffer), segs))
  }

  /** How the reference treats its first segment. */
  lemma ReferenceCons(carry: string, seg: Segment, segs: seq<Segment>)
    ensures Reference(carry, [seg] + segs) ==
      if seg.page != 0 then [Chunk(seg.page, Strip(carry + seg.text))] + Reference("", segs)
      else Reference(carry + seg.text, segs)
  {
    assert ([seg] + segs)[1..] == segs;
  }

  /** A marker piece and the text piece after it move the state forward by
      one segment. */
  lemma ExpectedStep(st: Fold, m: string, t: string, segs: seq<Segment>)
    requires Consistent(st)
    requires MatchMarker(m).Some? && MatchMarker(t).None?
    ensures Consistent(Step(Step(st, m), t))
    ensures Expected(Step(Step(st, m), t), segs) == Expected(st, [Segment(PageValue(m), t)] + segs)
  {
    if OpenPage(st) {
      ExpectedStepOpen(st, m, t, segs);
    } else {
      ExpectedStepCarry(st, m, t, segs);
    }
  }

  /** A page just opened on the segment `(v, t)`, its buffer joining to the
      carried text followed by `t`, expects what the reference gives for the
      segment with that carried text. */
  lemma ExpectedOpened(results: seq<Chunk>, buffer: seq<string>, carry: string,
                       v: nat, t: string, segs: seq<Segment>)
    requires buffer != [] && Concat(buffer) == carry + t
    ensures Expected(Fold(Some(v), buffer, results), segs) ==
            results + Reference(carry, [Segment(v, t)] + segs)
  {
    ReferenceCons(carry, Segment(v, t), segs);
  }

  /** With a page open, the pair flushes it and opens the marker's page with
      the text piece as its only buffered text. */
  lemma ExpectedStepOpen(st: Fold, m: string, t: string, segs: seq<Segment>)
    requires Consistent(st) && OpenPage(st)
    requires MatchMarker(m).Some? && MatchMarker(t).None?
    ensures Consistent(Step(Step(st, m), t))
    ensures Expected(Step(Step(st, m), t), segs) == Expected(st, [Segment(PageValue(m), t)] + segs)
  {
    var v := PageValue(m);
    StepMarker(st, m);
    StepText(Step(st, m), t);
    var flushed := st.results + [Flushed(st)];
    assert Step(Step(st, m), t) == Fold(Some(v), [t], flushed);
    ConcatSingle(t);
    assert Concat([t]) == "" + t;
    ExpectedOpened(flushed, [t], "", v, t, segs);
    var r := Reference("", [Segment(v, t)] + segs);
    assert Expected(st, [Segment(v, t)] + segs) == st.results + ([Flushed(st)] + r);
    assert flushed + r == st.results + ([Flushed(st)] + r);
  }

  /** Without an open page, the buffered text stays and the pair's text
      joins it. */
  lemma ExpectedStepCarry(st: Fold, m: string, t: string, segs: seq<Segment>)
    requires Consistent(st) && !OpenPage(st)
    requires MatchMarker(m).Some? && MatchMarker(t).None?
    ensures Consistent(Step(Step(st, m), t))
    ensures Expected(Step(Step(st, m), t), segs) == Expected(st, [Segment(PageValue(m), t)] + segs)
  {
    var v := PageValue(m);
    StepMarker(st, m);
    StepText(Step(st, m), t);
    assert Step(Step(st, m), t) == Fold(Some(v), st.buffer + [t], st.results);
    ConcatSnoc(st.buffer, t);
    ExpectedOpened(st.results, st.buffer + [t], Concat(st.buffer), v, t, segs);
  }

  /** The loop, run over marker/text pairs from a consistent state, ends with
      the records the reference expects. */
  lemma {:induction false} RunMatchesReference(st: Fold, tail: seq<string>)
    requires Alternating(tail)
    requires Consistent(st)
    ensures Finish(Run(st, tail)) == Expected(st, Segments(tail))
    decreases |tail|
  {
    if tail == [] {
      assert Run(st, tail) == st;
      assert Segments(tail) == [];
      if !OpenPage(st) {
        assert Reference(Concat(st.buffer), []) == [];
      }
    } else {
      var m, t, rest := tail[0], tail[1], tail[2..];
      RunPair(st, tail);
      AlternatingTail(tail);
      ExpectedStep(st, m, t, Segments(rest));
      RunMatchesReference(Step(Step(st, m), t), rest);
      assert Segments(tail) == [Segment(PageValue(m), t)] + Segments(rest);
    }
  }

  /** Dropping the first marker/text pair keeps the pieces alternating. */
  lemma AlternatingTail(tail: seq<string>)
    requires Alternating(tail) && tail != []
    ensures |tail| >= 2 && MatchMarker(tail[0]).Some? && MatchMarker(tail[1]).None?
    ensures Alternating(tail[2..])
  {
    var rest := tail[2..];
    assert forall j :: 0 <= j < |rest| ==> rest[j] == tail[j + 2];
  }

  /** A text piece never matches the marker pattern. */
  lemma MarkerFreeNoMatch(t: string)
    requires MarkerFree(t)
    ensures MatchMarker(t).None?
  {
    assert NoMarkerAt(t, 0);
    assert t[0..] == t;
  }

  /** A marker piece always matches the marker pattern. */
  lemma MarkerMatches(m: string)
    requires IsMarker(m)
    ensures MatchMarker(m).Some?
  {
    assert m[..|m|] == m;
    MarkerLenExact(m, |m|);
  }

  /** The shape `re.split` leaves for the loop: a text piece, then
      marker/text pairs. */
  predicate Lexed(pieces: seq<string>) {
    |pieces| % 2 == 1 && MatchMarker(pieces[0]).None? && Alternating(pieces[1..])
  }

  /** A well-formed split has the shape the loop expects. */
  lemma WellSplitLexed(s: string, pieces: seq<string>)
    requires WellSplit(s, pieces)
    ensures Lexed(pieces)
  {
    MarkerFreeNoMatch(pieces[0]);
    var tail := pieces[1..];
    forall j | 0 <= j < |tail|
      ensures j % 2 == 0 ==> MatchMarker(tail[j]).Some?
      ensures j % 2 == 1 ==> MatchMarker(tail[j]).None?
    {
      if j % 2 == 0 {
        MarkerMatches(pieces[j + 1]);
      } else {
        MarkerFreeNoMatch(pieces[j + 1]);
      }
    }
  }

  /** The loop over lexed pieces agrees with the reference: the first text
      piece is the initial carried text. */
  lemma LoadPiecesMatchesReference(pieces: seq<string>)
    requires Lexed(pieces)
    ensures Finish(Run(Start, pieces)) == Reference(pieces[0], Segments(pieces[1..]))
  {
    var tail := pieces[1..];
    var st := Fold(None, [pieces[0]], []);
    RunFirstText(pieces);
    RunMatchesReference(st, tail);
    ConcatSingle(pieces[0]);
    var r := Reference(pieces[0], Segments(tail));
    assert Expected(st, Segments(tail)) == [] + r;
    assert [] + r == r;
  }

  /** The first text piece lands in the buffer, with no page open. */
  lemma RunFirstText(pieces: seq<string>)
    requires pieces != [] && MatchMarker(pieces[0]).None?
    ensures Run(Start, pieces) == Run(Fold(None, [pieces[0]], []), pieces[1..])
  {
    StepText(Start, pieces[0]);
    assert Start.buffer + [pieces[0]] == [pieces[0]];
  }

  /** The loop agrees with the reference definition on every document: the
      text before the first marker is the initial carried text. */
  lemma LoadBookMatchesReference(content: string)
    ensures LoadBookWithPages(content) == Reference(Intro(content), DocumentSegments(content))
  {
    var pieces := Split(content);
    SplitWellSplit(content);
    WellSplitLexed(content, pieces);
    LoadPiecesMatchesReference(pieces);
  }

  /** Any well-formed split of the document determines the records. */
  lemma LoadBookOfSplit(content: string, pieces: seq<string>)
    requires WellSplit(content, pieces)
    ensures LoadBookWithPages(content) == Reference(pieces[0], Segments(pieces[1..]))
  {
    SplitUnique(content, pieces);
    WellSplitLexed(content, pieces);
    LoadPiecesMatchesReference(pieces);
  }

  // ---------------------------------------------------------------------
  // Properties of the reference

  /** One record per non-zero segment, in segment order. */
  lemma {:induction false} ReferencePages(carry: string, segs: seq<Segment>)
    ensures PageNumbers(Reference(carry, segs)) == NonZeroPages(segs)
    decreases |segs|
  {
    if segs != [] {
      if segs[0].page != 0 {
        ReferencePages("", segs[1..]);
        var rest := Reference("", segs[1..]);
        var c := Chunk(segs[0].page, Strip(carry + segs[0].text));
        assert ([c] + rest)[1..] == rest;
      } else {
        ReferencePages(carry + segs[0].text, segs[1..]);
      }
    }
  }

  /** Every record of the reference is well formed. */
  lemma {:induction false} ReferenceWellFormed(carry: string, segs: seq<Segment>)
    ensures WellFormed(Reference(carry, segs))
    decreases |segs|
  {
    if segs != [] {
      if segs[0].page != 0 {
        ReferenceWellFormed("", segs[1..]);
        var rest := Reference("", segs[1..]);
        var c := Chunk(segs[0].page, Strip(carry + segs[0].text));
        assert forall i :: 1 <= i < |[c] + rest| ==> ([c] + rest)[i] == rest[i - 1];
      } else {
        ReferenceWellFormed(carry + segs[0].text, segs[1..]);
      }
    }
  }

  /** A page-0 segment's text is carried into the next non-zero page's
      record. */
  lemma ZeroPageCarried(carry: string, zero: string, seg: Segment, segs: seq<Segment>)
    requires seg.page != 0
    ensures Reference(carry, [Segment(0, zero), seg] + segs) ==
            [Chunk(seg.page, Strip(carry + zero + seg.text))] + Reference("", segs)
  {
    assert [Segment(0, zero), seg] + segs == [Segment(0, zero)] + ([seg] + segs);
    ReferenceCons(carry, Segment(0, zero), [seg] + segs);
    ReferenceCons(carry + zero, seg, segs);
  }

  /** A page-0 segment at the end of the document yields nothing. */
  lemma {:induction false} TrailingZeroDropped(carry: string, segs: seq<Segment>, t: string)
    ensures Reference(carry, segs + [Segment(0, t)]) == Reference(carry, segs)
    decreases |segs|
  {
    if segs == [] {
      ReferenceCons(carry, Segment(0, t), []);
      assert segs + [Segment(0, t)] == [Segment(0, t)] + [];
    } else {
      assert (segs + [Segment(0, t)])[1..] == segs[1..] + [Segment(0, t)];
      if segs[0].page != 0 {
        TrailingZeroDropped("", segs[1..], t);
      } else {
        TrailingZeroDropped(carry + segs[0].text, segs[1..], t);
      }
    }
  }

  /** A page whose text is only whitespace still yields a record, with empty
      text. */
  lemma BlankPageEmptyText(carry: string, seg: Segment, segs: seq<Segment>)
    requires seg.page != 0 && AllSpace(carry + seg.text)
    ensures Reference(carry, [seg] + segs) == [Chunk(seg.page, "")] + Reference("", segs)
  {
    ReferenceCons(carry, seg, segs);
  }

  // ---------------------------------------------------------------------
  // Consequences for documents

  /** The records' pages are the markers' pages with the zeros left out: one
      record per non-zero marker, in marker order, duplicates not merged. */
  lemma ChunkPagesAreNonZeroMarkers(content: string)
    ensures PageNumbers(LoadBookWithPages(content)) == NonZeroPages(DocumentSegments(content))
    ensures |LoadBookWithPages(content)| == |NonZeroPages(DocumentSegments(content))|
  {
    LoadBookMatchesReference(content);
    ReferencePages(Intro(content), DocumentSegments(content));
  }

  /** A document without a page marker yields no records. */
  lemma NoMarkerNoChunks(content: string)
    requires MarkerFree(content)
    ensures LoadBookWithPages(content) == []
  {
    SplitMarkerFree(content);
    LoadBookMatchesReference(content);
    assert DocumentSegments(content) == Segments([]);
  }

  /** The text before the first marker is not discarded: it opens the first
      record when the first marker's page is non-zero. */
  lemma IntroOpensFirstChunk(content: string)
    requires var segs := DocumentSegments(content); |segs| > 0 && segs[0].page != 0
    ensures var chunks := LoadBookWithPages(content);
            var segs := DocumentSegments(content);
            |chunks| > 0 && chunks[0] == Chunk(segs[0].page, Strip(Intro(content) + segs[0].text))
  {
    LoadBookMatchesReference(content);
  }

  /** Just before every marker after the first, a page is set and the buffer
      is non-empty: `re.split` puts a text piece after every marker. */
  lemma BufferNonEmptyAtMarker(pieces: seq<string>, k: nat)
    requires Lexed(pieces)
    requires 3 <= k < |pieces| && k % 2 == 1
    ensures var st := Run(Start, pieces[..k]);
            st.current.Some? && st.buffer != []
  {
    var tail := pieces[1..];
    assert MatchMarker(pieces[k - 2]).Some? by {
      assert pieces[k - 2] == tail[k - 3];
    }
    assert MatchMarker(pieces[k - 1]).None? by {
      assert pieces[k - 1] == tail[k - 2];
    }
    var before := Run(Start, pieces[..k - 2]);
    RunAppend(Start, pieces[..k - 2], [pieces[k - 2], pieces[k - 1]]);
    assert pieces[..k - 2] + [pieces[k - 2], pieces[k - 1]] == pieces[..k];
    RunPair(before, [pieces[k - 2], pieces[k - 1]]);
    StepMarker(before, pieces[k - 2]);
    StepText(Step(before, pieces[k - 2]), pieces[k - 1]);
  }

  /** Running the loop over two lists in turn is running it over their join. */
  lemma {:induction false} RunAppend(st: Fold, a: seq<string>, b: seq<string>)
    ensures Run(st, a + b) == Run(Run(st, a), b)
    decreases |a|
  {
    if a == [] {
      assert a + b == b;
    } else {
      assert (a + b)[1..] == a[1..] + b;
      RunAppend(Step(st, a[0]), a[1..], b);
    }
  }

  // ---------------------------------------------------------------------
  // Examples

  /** A marker-free text alone is a well-formed split. */
  lemma WellSplitSingle(text: string)
    requires MarkerFree(text)
    ensures WellSplit(text, [text])
  {
    ConcatSingle(text);
  }

  /** Putting a text and a marker in front of a well-formed split. */
  lemma WellSplitPrepend(text: string, m: string, s: string, tail: seq<string>)
    requires MarkerFree(text) && IsMarker(m)
    requires WellSplit(s, tail)
    ensures WellSplit(text + m + s, [text, m] + tail)
  {
    var pieces := [text, m] + tail;
    ConcatAppend([text, m], tail);
    assert Concat([text, m]) == text + (m + Concat([]));
    assert forall k :: 2 <= k < |pieces| ==> pieces[k] == tail[k - 2];
  }

  /** The segments of a marker/text pair followed by more pairs. */
  lemma SegmentsCons(m: string, t: string, rest: seq<string>)
    requires |rest| % 2 == 0
    ensures Segments([m, t] + rest) == [Segment(PageValue(m), t)] + Segments(rest)
  {
    assert ([m, t] + rest)[2..] == rest;
  }

  /** A document with one marker. */
  lemma OnePage(intro: string, ds: string, text: string)
    requires MarkerFree(intro) && MarkerFree(text)
    requires |ds| >= 1 && AllDigits(ds)
    ensures LoadBookWithPages(intro + MarkerText(ds) + text) ==
            Reference(intro, [Segment(DecimalValue(ds), text)])
  {
    var m := MarkerText(ds);
    MarkerTextMatches(ds);
    var pieces := OnePageSplit(intro, m, text);
    LoadBookOfSplit(intro + m + text, pieces);
    SegmentsOne(m, text);
    assert pieces[1..] == [m, text];
  }

  /** The split of a document with one marker. */
  lemma OnePageSplit(intro: string, m: string, text: string) returns (pieces: seq<string>)
    requires MarkerFree(intro) && MarkerFree(text) && IsMarker(m)
    ensures pieces == [intro, m, text]
    ensures WellSplit(intro + m + text, pieces)
  {
    WellSplitSingle(text);
    WellSplitPrepend(intro, m, text, [text]);
    pieces := [intro, m] + [text];
  }

  /** The segments of one marker/text pair. */
  lemma SegmentsOne(m: string, t: string)
    ensures Segments([m, t]) == [Segment(PageValue(m), t)]
  {
    assert [m, t] == [m, t] + [];
    SegmentsCons(m, t, []);
    assert Segments([]) == [];
  }

  /** A document with two markers. */
  lemma TwoPages(intro: string, ds1: string, t1: string, ds2: string, t2: string)
    requires MarkerFree(intro) && MarkerFree(t1) && MarkerFree(t2)
    requires |ds1| >= 1 && AllDigits(ds1) && |ds2| >= 1 && AllDigits(ds2)
    ensures LoadBookWithPages(intro + MarkerText(ds1) + (t1 + MarkerText(ds2) + t2)) ==
            Reference(intro, [Segment(DecimalValue(ds1), t1), Segment(DecimalValue(ds2), t2)])
  {
    var m1, m2 := MarkerText(ds1), MarkerText(ds2);
    MarkerTextMatches(ds1);
    MarkerTextMatches(ds2);
    var pieces := TwoPagesSplit(intro, m1, t1, m2, t2);
    LoadBookOfSplit(intro + m1 + (t1 + m2 + t2), pieces);
    SegmentsTwo(m1, t1, m2, t2);
    assert pieces[1..] == [m1, t1, m2, t2];
  }

  /** The split of a document with two markers. */
  lemma TwoPagesSplit(intro: string, m1: string, t1: string, m2: string, t2: string)
    returns (pieces: seq<string>)
    requires MarkerFree(intro) && MarkerFree(t1) && MarkerFree(t2)
    requires IsMarker(m1) && IsMarker(m2)
    ensures pieces == [intro, m1, t1, m2, t2]
    ensures WellSplit(intro + m1 + (t1 + m2 + t2), pieces)
  {
    WellSplitSingle(t2);
    WellSplitPrepend(t1, m2, t2, [t2]);
    var rest := [t1, m2] + [t2];
    WellSplitPrepend(intro, m1, t1 + m2 + t2, rest);
    pieces := [intro, m1] + rest;
  }

  /** The segments of two marker/text pairs. */
  lemma SegmentsTwo(m1: string, t1: string, m2: string, t2: string)
    ensures Segments([m1, t1, m2, t2]) == [Segment(PageValue(m1), t1), Segment(PageValue(m2), t2)]
  {
    assert [m1, t1, m2, t2] == [m1, t1] + [m2, t2];
    SegmentsCons(m1, t1, [m2, t2]);
    assert [m2, t2] == [m2, t2] + [];
    SegmentsCons(m2, t2, []);
    assert Segments([]) == [];
  }

  /** A marker with more digits than the cap makes the whole load raise,
      whatever surrounds it: `[P.` followed by 4301 ones, then `]x`, for
      instance. */
  lemma OverlongMarkerRaises(intro: string, ds: string, text: string)
    requires MarkerFree(intro) && MarkerFree(text)
    requires AllDigits(ds) && |ds| > IntMaxStrDigits
    ensures LoadBook(intro + MarkerText(ds) + text) == Failure(TooManyDigits(|ds|))
  {
    var m := MarkerText(ds);
    MarkerTextMatches(ds);
    WellSplitSingle(text);
    WellSplitPrepend(intro, m, text, [text]);
    SplitUnique(intro + m + text, [intro, m] + [text]);
    MarkerFreeNoMatch(intro);
    var pieces := [intro, m] + [text];
    assert Split(intro + m + text) == pieces;
    assert StepChecked(Start, intro) == Success(Step(Start, intro));
    assert pieces[1..] == [m, text];
    assert ParseInt(ds) == Failure(TooManyDigits(|ds|));
    assert StepChecked(Step(Start, intro), m) == Failure(TooManyDigits(|ds|));
    assert RunChecked(Start, pieces) == RunChecked(Step(Start, intro), pieces[1..]);
  }

  lemma IntroExample()
    ensures LoadBookWithPages("intro[P.1]hello") == [Chunk(1, "introhello")]
  {
    NoBracketMarkerFree("intro");
    NoBracketMarkerFree("hello");
    OnePage("intro", "1", "hello");
    IntroDocumentParts();
    assert DecimalValue("1") == 1;
    ReferenceCons("intro", Segment(1, "hello"), []);
    StripKeepsJoinedWords();
  }

  /** Joining two words without whitespace leaves nothing to strip. */
  lemma StripKeepsJoinedWords()
    ensures Strip("intro" + "hello") == "introhello"
  {
    assert "intro" + "hello" == "introhello";
    assert TrimStart("introhello") == "introhello";
  }

  /** A marker followed only by whitespace yields a record with empty text. */
  lemma BlankPageExample()
    ensures LoadBookWithPages("[P.5]   ") == [Chunk(5, "")]
  {
    NoBracketMarkerFree("");
    NoBracketMarkerFree("   ");
    OnePage("", "5", "   ");
    BlankDocumentParts();
    assert DecimalValue("5") == 5;
    assert AllSpace("" + "   ");
    BlankPageEmptyText("", Segment(5, "   "), []);
    assert [Segment(5, "   ")] + [] == [Segment(5, "   ")];
  }

  /** Leading zeros are accepted: `[P.007]` names page 7. */
  lemma LeadingZeroExample()
    ensures LoadBookWithPages("[P.007]x") == [Chunk(7, "x")]
  {
    NoBracketMarkerFree("");
    NoBracketMarkerFree("x");
    OnePage("", "007", "x");
    LeadingZeroDocumentParts();
    DigitsWithLeadingZerosSpellSeven();
    ReferenceOnePage("", Segment(7, "x"));
    StripKeepsSingleLetter();
  }

  /** A one-letter text has no whitespace to strip. */
  lemma StripKeepsSingleLetter()
    ensures Strip("" + "x") == "x"
  {
    assert "" + "x" == "x";
  }

  /** The text of a `[P.0]` segment is carried into the next page's record. */
  lemma ZeroPageDocument(intro: string, a: string, ds: string, b: string)
    requires MarkerFree(intro) && MarkerFree(a) && MarkerFree(b)
    requires |ds| >= 1 && AllDigits(ds) && DecimalValue(ds) != 0
    ensures LoadBookWithPages(intro + MarkerText("0") + (a + MarkerText(ds) + b)) ==
            [Chunk(DecimalValue(ds), Strip(intro + a + b))]
  {
    assert AllDigits("0") && DecimalValue("0") == 0;
    TwoPages(intro, "0", a, ds, b);
    ReferenceZeroThenPage(intro, a, Segment(DecimalValue(ds), b));
  }

  /** A page-0 segment followed by a non-zero one gives one record, holding
      both texts. */
  lemma ReferenceZeroThenPage(carry: string, t: string, seg: Segment)
    requires seg.page != 0
    ensures Reference(carry, [Segment(0, t), seg]) == [Chunk(seg.page, Strip(carry + t + seg.text))]
  {
    assert [Segment(0, t), seg] == [Segment(0, t), seg] + [];
    ZeroPageCarried(carry, t, seg, []);
  }

  /** A `[P.0]` segment at the end of a document yields nothing. */
  lemma TrailingZeroDocument(intro: string, ds: string, a: string, b: string)
    requires MarkerFree(intro) && MarkerFree(a) && MarkerFree(b)
    requires |ds| >= 1 && AllDigits(ds) && DecimalValue(ds) != 0
    ensures LoadBookWithPages(intro + MarkerText(ds) + (a + MarkerText("0") + b)) ==
            [Chunk(DecimalValue(ds), Strip(intro + a))]
  {
    assert AllDigits("0") && DecimalValue("0") == 0;
    TwoPages(intro, ds, a, "0", b);
    ReferencePageThenZero(intro, Segment(DecimalValue(ds), a), b);
  }

  /** A non-zero segment followed by a trailing page-0 segment gives one
      record. */
  lemma ReferencePageThenZero(carry: string, seg: Segment, t: string)
    requires seg.page != 0
    ensures Reference(carry, [seg, Segment(0, t)]) == [Chunk(seg.page, Strip(carry + seg.text))]
  {
    assert [seg, Segment(0, t)] == [seg] + [Segment(0, t)];
    TrailingZeroDropped(carry, [seg], t);
    ReferenceOnePage(carry, seg);
  }

  /** A single non-zero segment gives one record. */
  lemma ReferenceOnePage(carry: string, seg: Segment)
    requires seg.page != 0
    ensures Reference(carry, [seg]) == [Chunk(seg.page, Strip(carry + seg.text))]
  {
    assert [seg][1..] == [];
    assert Reference(carry, [seg]) == [Chunk(seg.page, Strip(carry + seg.text))] + [];
  }

  /** Two markers naming the same page give two records for it. */
  lemma RepeatedPageDocument(intro: string, ds: string, a: string, b: string)
    requires MarkerFree(intro) && MarkerFree(a) && MarkerFree(b)
    requires |ds| >= 1 && AllDigits(ds) && DecimalValue(ds) != 0
    ensures LoadBookWithPages(intro + MarkerText(ds) + (a + MarkerText(ds) + b)) ==
            [Chunk(DecimalValue(ds), Strip(intro + a)), Chunk(DecimalValue(ds), Strip(b))]
  {
    TwoPages(intro, ds, a, ds, b);
    ReferenceTwoPages(intro, Segment(DecimalValue(ds), a), Segment(DecimalValue(ds), b));
  }

  /** Two non-zero segments give two records, the carried text going to the
      first. */
  lemma ReferenceTwoPages(carry: string, s1: Segment, s2: Segment)
    requires s1.page != 0 && s2.page != 0
    ensures Reference(carry, [s1, s2]) ==
            [Chunk(s1.page, Strip(carry + s1.text)), Chunk(s2.page, Strip(s2.text))]
  {
    var c1, c2 := Chunk(s1.page, Strip(carry + s1.text)), Chunk(s2.page, Strip(s2.text));
    assert [s1, s2][1..] == [s2];
    assert [s2][1..] == [];
    assert "" + s2.text == s2.text;
    assert Reference("", [s2]) == [c2] + [];
    assert Reference(carry, [s1, s2]) == [c1] + ([c2] + []);
  }

  /** `007` spells 7. */
  lemma DigitsWithLeadingZerosSpellSeven()
    ensures DecimalValue("007") == 7
  {
    LeadingZero("7");
    LeadingZero("07");
    assert ['0'] + "7" == "07" && ['0'] + "07" == "007";
  }

  /** `intro[P.1]hello` is an intro, the marker for `1`, and a text. */
  lemma IntroDocumentParts()
    ensures "intro" + MarkerText("1") + "hello" == "intro[P.1]hello"
  {
  }

  /** `[P.5]   ` is the marker for `5` followed by blanks. */
  lemma BlankDocumentParts()
    ensures "" + MarkerText("5") + "   " == "[P.5]   "
  {
  }

  /** `[P.007]x` is the marker for `007` followed by a letter. */
  lemma LeadingZeroDocumentParts()
    ensures "" + MarkerText("007") + "x" == "[P.007]x"
  {
  }
}

=== FILE: index_files.dfy ===
/** The desktop front end's file conventions and input checks: where a new
    index and its metadata are written, how the search side finds the
    metadata again from the selected index file, which directory entries are
    offered for selection, and which inputs are refused before any work
    starts. The file system appears only as a set of existing paths and a
    directory listing. */
module IndexFiles {
  import opened Results
  import opened Text

  const EmbeddingDir: string := "embedding_files"
  const IndexSuffix: string := ".index"
  const MetaSuffix: string := "_meta.json"

  /** `os.path.join(dir, name)` on POSIX: an absolute `name` replaces `dir`;
      otherwise a `/` is put between them unless `dir` is empty or already
      ends with one. */
  function JoinPath(dir: string, name: string): (r: string)
    ensures |name| > 0 && name[0] == '/' ==> r == name
    ensures !(|name| > 0 && name[0] == '/') ==>
              && EndsWith(r, name)
              && r[..|r| - |name|] == (if dir == [] || dir[|dir| - 1] == '/' then dir else dir + "/")
  {
    if |name| > 0 && name[0] == '/' then name
    else if dir == [] || dir[|dir| - 1] == '/' then dir + name
    else dir + "/" + name
  }

  /** Where the index for `name` is written: `<name>.index` inside the
      index directory, unless the name is an absolute path. */
  function IndexPathFor(name: string): (r: string)
    ensures EndsWith(r, name + IndexSuffix)
    ensures !(|name| > 0 && name[0] == '/') ==> r == EmbeddingDir + "/" + (name + IndexSuffix)
  {
    assert (name + IndexSuffix)[0] == if name == [] then '.' else name[0];
    JoinPath(EmbeddingDir, name + IndexSuffix)
  }

  /** Where the metadata for `name` is written: `<name>_meta.json` inside the
      index directory, unless the name is an absolute path. */
  function MetaPathFor(name: string): (r: string)
    ensures EndsWith(r, name + MetaSuffix)
    ensures !(|name| > 0 && name[0] == '/') ==> r == EmbeddingDir + "/" + (name + MetaSuffix)
  {
    assert (name + MetaSuffix)[0] == if name == [] then '_' else name[0];
    JoinPath(EmbeddingDir, name + MetaSuffix)
  }

  /** The search side's guess at the metadata path: every `.index` in the
      index path becomes `_meta.json`. A path without `.index` is its own
      guess, and the guess is never shorter than the path. */
  function DeriveMetaPath(indexPath: string): (r: string)
    ensures !Contains(indexPath, IndexSuffix) ==> r == indexPath
    ensures |indexPath| <= |r|
  {
    var r := ReplaceAll(indexPath, IndexSuffix, MetaSuffix);
    if Contains(indexPath, IndexSuffix) then r
    else
      ReplaceAllAbsent(indexPath, IndexSuffix, MetaSuffix);
      r
  }

  /** What `JoinPath(EmbeddingDir, …)` puts in front of a relative name. */
  function DirPrefix(name: string): (r: string)
    ensures '.' !in r
  {
    if |name| > 0 && name[0] == '/' then [] else EmbeddingDir + "/"
  }

  /** Both paths of a name share one directory prefix, since the suffixes do
      not start with `/`. */
  lemma PathsShareDirectory(name: string)
    ensures IndexPathFor(name) == DirPrefix(name) + (name + IndexSuffix)
    ensures MetaPathFor(name) == DirPrefix(name) + (name + MetaSuffix)
  {
    if name == [] {
      assert (name + IndexSuffix)[0] == '.';
      assert (name + MetaSuffix)[0] == '_';
    } else {
      assert (name + IndexSuffix)[0] == name[0];
      assert (name + MetaSuffix)[0] == name[0];
    }
  }

  lemma IndexSuffixShape()
    ensures IndexSuffix != [] && IndexSuffix[0] == '.'
    ensures forall k :: 0 < k < |IndexSuffix| ==> IndexSuffix[k] != IndexSuffix[0]
  {
  }

  /** Deriving from the built index path gives the built metadata path
      exactly when the name holds no `.index`. */
  lemma MetaPathRoundTrip(name: string)
    ensures DeriveMetaPath(IndexPathFor(name)) == MetaPathFor(name) <==> !Contains(name, IndexSuffix)
  {
    if !Contains(name, IndexSuffix) {
      UndottedNameMatches(name);
    } else {
      DottedNameDiffers(name);
    }
  }

  lemma UndottedNameMatches(name: string)
    requires !Contains(name, IndexSuffix)
    ensures DeriveMetaPath(IndexPathFor(name)) == MetaPathFor(name)
  {
    PathsShareDirectory(name);
    IndexSuffixShape();
    ReplaceAllSkipsPrefix(DirPrefix(name), name + IndexSuffix, IndexSuffix, MetaSuffix);
    ReplaceAllSuffix(name, IndexSuffix, MetaSuffix);
  }

  lemma DottedNameDiffers(name: string)
    requires Contains(name, IndexSuffix)
    ensures DeriveMetaPath(IndexPathFor(name)) != MetaPathFor(name)
  {
    var pre := DirPrefix(name);
    PathsShareDirectory(name);
    IndexSuffixShape();
    ReplaceAllSkipsPrefix(pre, name + IndexSuffix, IndexSuffix, MetaSuffix);
    var q := FirstOccurrence(name, IndexSuffix);
    DerivedDiffersAt(name, q);
    var derived := ReplaceAll(name + IndexSuffix, IndexSuffix, MetaSuffix);
    PrefixedDiffer(pre, derived, name + MetaSuffix, q);
    assert DeriveMetaPath(IndexPathFor(name)) == pre + derived;
  }

  /** Strings that differ at some position still differ behind a common
      prefix. */
  lemma PrefixedDiffer(pre: string, x: string, y: string, q: nat)
    requires q < |x| && q < |y| && x[q] != y[q]
    ensures pre + x != pre + y
  {
    assert (pre + x)[|pre| + q] == x[q];
    assert (pre + y)[|pre| + q] == y[q];
  }

  /** At the first `.index` of the name, the derived path has `_` where the
      built metadata path has `.`. */
  lemma DerivedDiffersAt(name: string, q: nat)
    requires OccursAt(name, IndexSuffix, q)
    requires forall p: nat :: p < q ==> !OccursAt(name, IndexSuffix, p)
    ensures q < |name + MetaSuffix| && q < |ReplaceAll(name + IndexSuffix, IndexSuffix, MetaSuffix)|
    ensures ReplaceAll(name + IndexSuffix, IndexSuffix, MetaSuffix)[q] != (name + MetaSuffix)[q]
  {
    var derived := ReplaceAll(name + IndexSuffix, IndexSuffix, MetaSuffix);
    FirstInName(name, q);
    ReplaceAllAtFirst(name + IndexSuffix, IndexSuffix, MetaSuffix, q);
    assert derived[q] == '_';
    assert (name + MetaSuffix)[q] == '.' by {
      assert name[q..q + |IndexSuffix|] == IndexSuffix;
      assert name[q] == name[q..q + |IndexSuffix|][0] == IndexSuffix[0];
      assert (name + MetaSuffix)[q] == name[q];
    }
  }

  /** The first occurrence in `name` is also the first in `name + ".index"`. */
  lemma FirstInName(name: string, q: nat)
    requires OccursAt(name, IndexSuffix, q)
    requires forall p: nat :: p < q ==> !OccursAt(name, IndexSuffix, p)
    ensures OccursAt(name + IndexSuffix, IndexSuffix, q)
    ensures forall p: nat :: p < q ==> !OccursAt(name + IndexSuffix, IndexSuffix, p)
  {
    var s := name + IndexSuffix;
    assert s[q..q + |IndexSuffix|] == name[q..q + |IndexSuffix|];
    forall p: nat | p < q
      ensures !OccursAt(s, IndexSuffix, p)
    {
      assert p + |IndexSuffix| <= |name|;
      assert !OccursAt(name, IndexSuffix, p);
      assert s[p..p + |IndexSuffix|] == name[p..p + |IndexSuffix|];
    }
  }

  /** A name such as `a.index` breaks the convention: the derived metadata
      path is not the one the build wrote. */
  lemma DottedNameMisses()
    ensures DeriveMetaPath(IndexPathFor("a.index")) != MetaPathFor("a.index")
  {
    assert OccursAt("a.index", IndexSuffix, 1);
    MetaPathRoundTrip("a.index");
  }

  /** The entries of the directory listing that end in `.index`, in listing
      order. */
  function IndexEntries(entries: seq<string>): (r: seq<string>)
    ensures |r| <= |entries|
    decreases |entries|
  {
    if entries == [] then []
    else (if EndsWith(entries[0], IndexSuffix) then [entries[0]] else []) + IndexEntries(entries[1..])
  }

  /** The listing keeps exactly the entries ending in `.index`. */
  lemma {:induction false} IndexEntriesMembers(entries: seq<string>)
    ensures forall f :: f in IndexEntries(entries) <==> f in entries && EndsWith(f, IndexSuffix)
    decreases |entries|
  {
    if entries != [] {
      IndexEntriesMembers(entries[1..]);
      assert forall f :: f in entries <==> f == entries[0] || f in entries[1..];
    }
  }

  /** Filtering a listing in two parts filters each part, in order. */
  lemma {:induction false} IndexEntriesAppend(a: seq<string>, b: seq<string>)
    ensures IndexEntries(a + b) == IndexEntries(a) + IndexEntries(b)
    decreases |a|
  {
    if a == [] {
      assert a + b == b;
    } else {
      assert (a + b)[0] == a[0] && (a + b)[1..] == a[1..] + b;
      IndexEntriesAppend(a[1..], b);
      assert IndexEntries(a + b) == (if EndsWith(a[0], IndexSuffix) then [a[0]] else []) + IndexEntries(a[1..] + b);
    }
  }

  /** The selection list of the search window. */
  datatype Picker = Picker(values: seq<string>, selection: string)

  /** `load_available_files`: `listing` is `None` when the directory does not
      exist yet (it is created and nothing else changes); otherwise the
      `.index` entries become the choices and, if there are any, the first
      becomes the selection. */
  function Refresh(p: Picker, listing: Option<seq<string>>): (r: Picker)
    ensures listing.None? ==> r == p
    ensures listing.Some? ==> r.values == IndexEntries(listing.value)
    ensures listing.Some? && r.values != [] ==> r.selection == r.values[0]
    ensures listing.Some? && r.values == [] ==> r.selection == p.selection
  {
    match listing
    case None => p
    case Some(entries) =>
      var files := IndexEntries(entries);
      Picker(files, if files != [] then files[0] else p.selection)
  }

  /** After a refresh that found index files, the selection is one of them:
      an entry of the listing that ends in `.index`. Refreshing again with
      the same listing changes nothing. */
  lemma RefreshSelects(p: Picker, entries: seq<string>)
    ensures var r := Refresh(p, Some(entries));
            r.values != [] ==> r.selection in entries && EndsWith(r.selection, IndexSuffix)
    ensures Refresh(Refresh(p, Some(entries)), Some(entries)) == Refresh(p, Some(entries))
  {
    IndexEntriesMembers(entries);
  }

  /** Why a search is not started. */
  datatype SearchRefusal = EmptyQuery | NoIndexSelected | MissingMetadata(path: string)

  /** What a started search is given. */
  datatype SearchPlan = SearchPlan(query: string, indexPath: string, metaPath: string)

  /** `perform_search` up to the call of the search: the query is stripped
      and must not be empty; an index file must be selected; the derived
      metadata file must exist. */
  function PlanSearch(rawQuery: string, indexFile: string, existing: set<string>): (r: Result<SearchPlan, SearchRefusal>)
    ensures r == Failure(EmptyQuery) <==> AllSpace(rawQuery)
    ensures r == Failure(NoIndexSelected) <==> !AllSpace(rawQuery) && indexFile == []
    ensures r.Success? ==> && r.value.query == Strip(rawQuery)
                           && r.value.query != [] && NoEdgeSpace(r.value.query)
                           && r.value.indexPath == JoinPath(EmbeddingDir, indexFile)
                           && r.value.metaPath == DeriveMetaPath(r.value.indexPath)
                           && r.value.metaPath in existing
    ensures r.Failure? && r.error.MissingMetadata? ==>
              r.error.path == DeriveMetaPath(JoinPath(EmbeddingDir, indexFile)) && r.error.path !in existing
  {
    var query := Strip(rawQuery);
    if query == [] then Failure(EmptyQuery)
    else if indexFile == [] then Failure(NoIndexSelected)
    else
      var indexPath := JoinPath(EmbeddingDir, indexFile);
      var metaPath := DeriveMetaPath(indexPath);
      if metaPath !in existing then Failure(MissingMetadata(metaPath))
      else Success(SearchPlan(query, indexPath, metaPath))
  }

  /** Why index creation is not started. */
  datatype BuildRefusal = MissingInput | FileNotFound

  /** What a started build is given. */
  datatype BuildPlan = BuildPlan(filePath: string, name: string, indexPath: string, metaPath: string)

  /** `create_index` up to the start of the build: a file must be chosen, the
      stripped name must not be empty, and the file must exist. */
  function PlanBuild(filePath: string, rawName: string, existing: set<string>): (r: Result<BuildPlan, BuildRefusal>)
    ensures r == Failure(MissingInput) <==> filePath == [] || AllSpace(rawName)
    ensures r == Failure(FileNotFound) <==> filePath != [] && !AllSpace(rawName) && filePath !in existing
    ensures r.Success? ==> && r.value.filePath == filePath && filePath in existing
                           && r.value.name == Strip(rawName) && r.value.name != []
                           && r.value.indexPath == IndexPathFor(r.value.name)
                           && r.value.metaPath == MetaPathFor(r.value.name)
  {
    var name := Strip(rawName);
    if filePath == [] || name == [] then Failure(MissingInput)
    else if filePath !in existing then Failure(FileNotFound)
    else Success(BuildPlan(filePath, name, IndexPathFor(name), MetaPathFor(name)))
  }

  /** After a build, selecting its index file and searching, with the
      metadata file the build wrote as the only file present, starts the
      search on the build's two files exactly when the name holds no
      `.index`; otherwise the search is refused for a missing metadata file. */
  lemma {:induction false} BuildThenSearch(filePath: string, rawName: string, files: set<string>, rawQuery: string)
    requires PlanBuild(filePath, rawName, files).Success?
    requires !AllSpace(rawQuery)
    ensures var b := PlanBuild(filePath, rawName, files).value;
            var s := PlanSearch(rawQuery, b.name + IndexSuffix, {b.metaPath});
            (s.Success? <==> !Contains(b.name, IndexSuffix))
            && (s.Success? ==> s.value.indexPath == b.indexPath && s.value.metaPath == b.metaPath)
  {
    var b := PlanBuild(filePath, rawName, files).value;
    MetaPathRoundTrip(b.name);
    assert b.name + IndexSuffix != [];
  }
}

=== FILE: load_cache.dfy ===
/** The module-level caches of the search side: `_index_cache` maps an index
    path to the loaded vector index and `_metadata_cache` maps a metadata path
    to the loaded chunk list. A search loads each of its two paths only when
    that path is not cached yet; `clear_cache` empties both maps.

    The files themselves are a `Disk`: what reading each path yields, with an
    absent path standing for a read that raises (a missing or unreadable
    file). Every read the model performs is recorded, so the properties can
    say when the disk is consulted at all. */
module LoadCache {
  import opened Results
  import opened Retrieval

  /** `_index_cache` and `_metadata_cache`. */
  datatype Cache<I, M> = Cache(indexes: map<string, I>, metadata: map<string, M>)

  /** What `faiss.read_index` and `json.load` return for each path. */
  datatype Disk<I, M> = Disk(indexFiles: map<string, I>, metaFiles: map<string, M>)

  /** A call of `faiss.read_index(path)` or `json.load(open(path))`. */
  datatype Read = ReadIndex(path: string) | ReadMetadata(path: string)

  /** The exception a failing read raises, with its path. */
  datatype LoadError = MissingIndex(path: string) | MissingMetadata(path: string)

  /** The caches after the loading step, the reads it made, and the pair
      `(index, chunks)` read back from the caches, or the first error. */
  datatype Loaded<I, M> = Loaded(cache: Cache<I, M>, trace: seq<Read>, result: Result<(I, M), LoadError>)

  /** The caches at import time. */
  function Empty<I(==), M(==)>(): Cache<I, M> {
    Cache(map[], map[])
  }

  /** `clear_cache()`. */
  function Clear<I(==), M(==)>(c: Cache<I, M>): (r: Cache<I, M>)
    ensures r == Empty()
  {
    Cache(map[], map[])
  }

  /** The loading step: the index is loaded if its path is not cached, and
      stored before the metadata is looked at; then the metadata likewise.
      A failing read leaves whatever was stored before it. */
  function Load<I(==), M(==)>(c: Cache<I, M>, disk: Disk<I, M>, ip: string, mp: string): (r: Loaded<I, M>)
    ensures Extends(c, r.cache)
    ensures r.result.Success? ==> && ip in r.cache.indexes && mp in r.cache.metadata
                                  && r.result.value == (r.cache.indexes[ip], r.cache.metadata[mp])
  {
    if ip !in c.indexes && ip !in disk.indexFiles then
      Loaded(c, [ReadIndex(ip)], Failure(MissingIndex(ip)))
    else
      var indexes := if ip in c.indexes then c.indexes else c.indexes[ip := disk.indexFiles[ip]];
      var indexReads := if ip in c.indexes then [] else [ReadIndex(ip)];
      if mp !in c.metadata && mp !in disk.metaFiles then
        Loaded(c.(indexes := indexes), indexReads + [ReadMetadata(mp)], Failure(MissingMetadata(mp)))
      else
        var metadata := if mp in c.metadata then c.metadata else c.metadata[mp := disk.metaFiles[mp]];
        var metaReads := if mp in c.metadata then [] else [ReadMetadata(mp)];
        Loaded(Cache(indexes, metadata), indexReads + metaReads, Success((indexes[ip], metadata[mp])))
  }

  /** `c2` holds every entry of `c1`, with the same value. */
  predicate Extends<I(==), M(==)>(c1: Cache<I, M>, c2: Cache<I, M>) {
    && (forall p :: p in c1.indexes ==> p in c2.indexes && c2.indexes[p] == c1.indexes[p])
    && (forall p :: p in c1.metadata ==> p in c2.metadata && c2.metadata[p] == c1.metadata[p])
  }

  /** The disk is read for a path exactly when that path is not cached (the
      metadata only once the index is available), and nothing else is read. */
  lemma LoadReads<I, M>(c: Cache<I, M>, disk: Disk<I, M>, ip: string, mp: string)
    ensures ReadIndex(ip) in Load(c, disk, ip, mp).trace <==> ip !in c.indexes
    ensures ReadMetadata(mp) in Load(c, disk, ip, mp).trace <==>
              (ip in c.indexes || ip in disk.indexFiles) && mp !in c.metadata
    ensures forall rd :: rd in Load(c, disk, ip, mp).trace ==> rd == ReadIndex(ip) || rd == ReadMetadata(mp)
    ensures |Load(c, disk, ip, mp).trace| <= 2
  {
  }

  /** A load never replaces or removes an entry, and adds only its own two
      paths. */
  lemma LoadExtends<I, M>(c: Cache<I, M>, disk: Disk<I, M>, ip: string, mp: string)
    ensures Extends(c, Load(c, disk, ip, mp).cache)
    ensures Load(c, disk, ip, mp).cache.indexes.Keys <= c.indexes.Keys + {ip}
    ensures Load(c, disk, ip, mp).cache.metadata.Keys <= c.metadata.Keys + {mp}
  {
  }

  /** The load fails exactly when a path is neither cached nor readable, and
      the index is tried first. */
  lemma LoadFails<I, M>(c: Cache<I, M>, disk: Disk<I, M>, ip: string, mp: string)
    ensures Load(c, disk, ip, mp).result.Failure? <==>
              (ip !in c.indexes && ip !in disk.indexFiles) || (mp !in c.metadata && mp !in disk.metaFiles)
    ensures ip !in c.indexes && ip !in disk.indexFiles ==>
              Load(c, disk, ip, mp).result == Failure(MissingIndex(ip))
  {
  }

  /** On success the pair is what the caches now hold for the two paths: the
      cached value when there was one, otherwise what was read. */
  lemma LoadValues<I, M>(c: Cache<I, M>, disk: Disk<I, M>, ip: string, mp: string)
    requires Load(c, disk, ip, mp).result.Success?
    ensures ip in Load(c, disk, ip, mp).cache.indexes && mp in Load(c, disk, ip, mp).cache.metadata
    ensures Load(c, disk, ip, mp).result.value ==
              (Load(c, disk, ip, mp).cache.indexes[ip], Load(c, disk, ip, mp).cache.metadata[mp])
    ensures Load(c, disk, ip, mp).result.value.0 == (if ip in c.indexes then c.indexes[ip] else disk.indexFiles[ip])
    ensures Load(c, disk, ip, mp).result.value.1 == (if mp in c.metadata then c.metadata[mp] else disk.metaFiles[mp])
  {
  }

  /** With both paths cached the disk is not consulted: the caches stay as
      they are and the cached values come back even if the files have changed
      since they were loaded. */
  lemma CachedIgnoresDisk<I, M>(c: Cache<I, M>, disk: Disk<I, M>, ip: string, mp: string)
    requires ip in c.indexes && mp in c.metadata
    ensures Load(c, disk, ip, mp) == Loaded(c, [], Success((c.indexes[ip], c.metadata[mp])))
  {
  }

  /** After a successful load, loading the same paths again reads nothing and
      returns the same pair, whatever the disk holds by then. */
  lemma SecondLoadReadsNothing<I, M>(c: Cache<I, M>, disk: Disk<I, M>, later: Disk<I, M>, ip: string, mp: string)
    requires Load(c, disk, ip, mp).result.Success?
    ensures var first := Load(c, disk, ip, mp);
            Load(first.cache, later, ip, mp) == Loaded(first.cache, [], first.result)
  {
    LoadValues(c, disk, ip, mp);
  }

  /** The index is stored before the metadata is read: when only the metadata
      read fails, the index stays cached and the metadata cache is unchanged. */
  lemma MetadataFailureKeepsIndex<I, M>(c: Cache<I, M>, disk: Disk<I, M>, ip: string, mp: string)
    requires Load(c, disk, ip, mp).result == Failure(MissingMetadata(mp))
    ensures ip in Load(c, disk, ip, mp).cache.indexes
    ensures ip !in c.indexes ==> Load(c, disk, ip, mp).cache.indexes == c.indexes[ip := disk.indexFiles[ip]]
    ensures Load(c, disk, ip, mp).cache.metadata == c.metadata
  {
  }

  /** A failing index read changes nothing. */
  lemma IndexFailureChangesNothing<I, M>(c: Cache<I, M>, disk: Disk<I, M>, ip: string, mp: string)
    requires Load(c, disk, ip, mp).result.Failure? && Load(c, disk, ip, mp).result.error.MissingIndex?
    ensures Load(c, disk, ip, mp).cache == c
    ensures Load(c, disk, ip, mp).trace == [ReadIndex(ip)]
  {
  }

  /** After `clear_cache()` the next load reads both files again. */
  lemma ClearForcesReload<I, M>(c: Cache<I, M>, disk: Disk<I, M>, ip: string, mp: string)
    requires ip in disk.indexFiles
    ensures Load(Clear(c), disk, ip, mp).trace == [ReadIndex(ip), ReadMetadata(mp)]
  {
  }

  /** One step of a session: a search's loading step against whatever the
      disk holds at that moment, or `clear_cache()`. */
  datatype Event<I, M> = Search(disk: Disk<I, M>, ip: string, mp: string) | ClearCaches

  /** The caches after a session of events. */
  function Replay<I(==), M(==)>(c: Cache<I, M>, events: seq<Event<I, M>>): Cache<I, M>
    decreases |events|
  {
    if events == [] then c
    else
      var next := match events[0]
        case Search(disk, ip, mp) => Load(c, disk, ip, mp).cache
        case ClearCaches => Clear(c);
      Replay(next, events[1..])
  }

  /** An entry, once stored, stays with the same value until the caches are
      cleared, across any number of searches and changes to the files. */
  lemma {:induction false} EntriesPersist<I, M>(c: Cache<I, M>, events: seq<Event<I, M>>)
    requires forall k :: 0 <= k < |events| ==> events[k].Search?
    ensures Extends(c, Replay(c, events))
    decreases |events|
  {
    if events != [] {
      var e := events[0];
      LoadExtends(c, e.disk, e.ip, e.mp);
      var next := Load(c, e.disk, e.ip, e.mp).cache;
      EntriesPersist(next, events[1..]);
      ExtendsTransitive(c, next, Replay(next, events[1..]));
    }
  }

  lemma ExtendsTransitive<I, M>(c1: Cache<I, M>, c2: Cache<I, M>, c3: Cache<I, M>)
    requires Extends(c1, c2) && Extends(c2, c3)
    ensures Extends(c1, c3)
  {
  }

  /** Why the query produced no result ids: `client.embeddings.create`
      raised while embedding it, or the vector index's `search` raised. */
  datatype QueryError = EmbeddingFailed | IndexSearchFailed

  /** Why a search produced no results. */
  datatype SearchError = LoadFailed(load: LoadError) | QueryFailed(query: QueryError) | LookupFailed(lookup: LookupError)

  /** The caches after a search, the reads it made, and its results. */
  datatype Searched<I, C> = Searched(cache: Cache<I, seq<C>>, trace: seq<Read>, result: Result<seq<C>, SearchError>)

  /** `search_faiss_with_cost` without its timing and cost figures: the
      loading step, then the ids the index returns for the query (`hits`,
      which stands for embedding the query and searching the index, and
      either may raise), then the result assembly. */
  function SearchWithCache<I(==), C(==)>(c: Cache<I, seq<C>>, disk: Disk<I, seq<C>>, ip: string, mp: string,
                                         hits: I -> Result<seq<int>, QueryError>)
    : (r: Searched<I, C>)
    ensures r.cache == Load(c, disk, ip, mp).cache && r.trace == Load(c, disk, ip, mp).trace
    ensures Extends(c, r.cache)
    ensures (r.result.Failure? && r.result.error.LoadFailed?) <==> Load(c, disk, ip, mp).result.Failure?
    ensures (r.result.Failure? && r.result.error.QueryFailed?) <==>
              Load(c, disk, ip, mp).result.Success? && hits(r.cache.indexes[ip]).Failure?
    ensures r.result.Success? ==> hits(r.cache.indexes[ip]).Success?
                                  && |r.result.value| <= |hits(r.cache.indexes[ip]).value|
  {
    var loaded := Load(c, disk, ip, mp);
    match loaded.result
    case Failure(e) => Searched(loaded.cache, loaded.trace, Failure(LoadFailed(e)))
    case Success(pair) =>
      match hits(pair.0)
      case Failure(e) => Searched(loaded.cache, loaded.trace, Failure(QueryFailed(e)))
      case Success(ids) =>
        CollectedLength(ids, pair.1);
        match Collected(ids, pair.1)
        case Failure(e) => Searched(loaded.cache, loaded.trace, Failure(LookupFailed(e)))
        case Success(results) => Searched(loaded.cache, loaded.trace, Success(results))
  }

  /** A search queries the cached index and assembles its results from the
      cached chunk list. Once the load has succeeded, an exception from the
      embedding call or the index search, or an `IndexError` in the
      assembly, still leaves both files cached. */
  lemma SearchUsesCache<I, C>(c: Cache<I, seq<C>>, disk: Disk<I, seq<C>>, ip: string, mp: string,
                              hits: I -> Result<seq<int>, QueryError>)
    requires Load(c, disk, ip, mp).result.Success?
    ensures var s := SearchWithCache(c, disk, ip, mp, hits);
            && ip in s.cache.indexes && mp in s.cache.metadata
            && (hits(s.cache.indexes[ip]).Failure? ==> s.result == Failure(QueryFailed(hits(s.cache.indexes[ip]).error)))
            && (hits(s.cache.indexes[ip]).Success? ==>
                  (s.result.Failure? <==> Collected(hits(s.cache.indexes[ip]).value, s.cache.metadata[mp]).Failure?))
    ensures var s := SearchWithCache(c, disk, ip, mp, hits);
            ip in s.cache.indexes && mp in s.cache.metadata && s.result.Success? ==>
              hits(s.cache.indexes[ip]).Success? &&
              Collected(hits(s.cache.indexes[ip]).value, s.cache.metadata[mp]) == Success(s.result.value)
  {
    LoadValues(c, disk, ip, mp);
  }

  /** Two searches of the same files whose queries have the same outcome
      give the same results, and the second reads nothing, even if the files
      changed in between. */
  lemma RepeatedSearchIsStable<I, C>(c: Cache<I, seq<C>>, disk: Disk<I, seq<C>>, later: Disk<I, seq<C>>,
                                     ip: string, mp: string, hits: I -> Result<seq<int>, QueryError>)
    requires Load(c, disk, ip, mp).result.Success?
    ensures var first := SearchWithCache(c, disk, ip, mp, hits);
            var second := SearchWithCache(first.cache, later, ip, mp, hits);
            second.trace == [] && second.result == first.result && second.cache == first.cache
  {
    SecondLoadReadsNothing(c, disk, later, ip, mp);
  }
}

=== FILE: pages.dfy ===
/** The page-marker lexer behind `load_book_with_pages`: the pattern
    `\[P\.(\d+)\]`, `int()` of its digit group, and `re.split` with that
    pattern in a capturing group, which yields the alternating list
    text, marker, text, ..., marker, text. */
module Pages {
  import opened Results
  import opened Text

  /** `\d`, restricted to the ASCII digits. */
  predicate IsDigit(c: char) {
    '0' <= c <= '9'
  }

  predicate AllDigits(s: string) {
    forall k :: 0 <= k < |s| ==> IsDigit(s[k])
  }

  /** Length of the longest all-digit prefix of `s` (what a greedy `\d+` consumes). */
  function DigitRun(s: string): (n: nat)
    ensures n <= |s|
    ensures AllDigits(s[..n])
    ensures n < |s| ==> !IsDigit(s[n])
  {
    if |s| > 0 && IsDigit(s[0]) then 1 + DigitRun(s[1..]) else 0
  }

  /** `m` is, in full, one page marker `[P.<digits>]`. */
  predicate IsMarker(m: string) {
    && |m| >= 5
    && m[..3] == "[P."
    && m[|m| - 1] == ']'
    && AllDigits(m[3..|m| - 1])
  }

  /** The length of the page marker at the start of `s`, if `s` starts with
      one: `[P.`, the greedy run of digits (at least one), then `]`. */
  function MarkerLen(s: string): (r: Option<nat>)
    ensures r.Some? ==> r.value <= |s| && IsMarker(s[..r.value])
  {
    if |s| >= 3 && s[..3] == "[P." then
      var d := DigitRun(s[3..]);
      if d >= 1 && 3 + d < |s| && s[3 + d] == ']' then
        assert s[..4 + d][3..3 + d] == s[3..][..d];
        Some(4 + d)
      else
        None
    else
      None
  }

  /** The converse: a marker at the start of `s` is the one `MarkerLen` finds,
      so at most one prefix of a string is a marker. */
  lemma MarkerLenExact(s: string, n: nat)
    requires n <= |s| && IsMarker(s[..n])
    ensures MarkerLen(s) == Some(n)
  {
    var m := s[..n];
    assert s[..3] == m[..3];
    forall k | 0 <= k < n - 4
      ensures IsDigit(s[3..][k])
    {
      assert s[3..][k] == m[3..n - 1][k];
    }
    assert s[3..][n - 4] == m[n - 1];
  }

  /** When `MarkerLen` finds nothing, no prefix is a marker. */
  lemma NoMarkerPrefix(s: string)
    requires MarkerLen(s).None?
    ensures forall n: nat :: n <= |s| ==> !IsMarker(s[..n])
  {
    forall n: nat | n <= |s|
      ensures !IsMarker(s[..n])
    {
      if IsMarker(s[..n]) {
        MarkerLenExact(s, n);
      }
    }
  }

  /** A marker found at the start of `t` is still found when `t` is extended. */
  lemma MarkerLenExtend(t: string, u: string)
    requires MarkerLen(t).Some?
    ensures MarkerLen(t + u) == MarkerLen(t)
  {
    var n := MarkerLen(t).value;
    assert (t + u)[..n] == t[..n];
  }

  /** No character after the first one of a marker is `[`, so two markers
      cannot overlap. */
  lemma MarkerHasOneBracket(m: string, k: int)
    requires IsMarker(m)
    requires 0 < k < |m|
    ensures m[k] != '['
  {
    if k < 3 {
      assert m[k] == m[..3][k];
    } else if k < |m| - 1 {
      assert m[k] == m[3..|m| - 1][k - 3];
    }
  }

  /** Python's `re.match(r"\[P\.(\d+)\]", piece)`: when `piece` starts with a
      marker, the marker's digit group. */
  function MatchMarker(piece: string): (r: Option<string>)
    ensures r.Some? ==> && |r.value| >= 1 && |r.value| + 4 <= |piece|
                        && AllDigits(r.value)
                        && piece[..|r.value| + 4] == "[P." + r.value + "]"
  {
    match MarkerLen(piece)
    case Some(n) =>
      var m := piece[..n];
      assert m == m[..3] + m[3..n - 1] + [m[n - 1]];
      Some(piece[3..n - 1])
    case None => None
  }

  /** The match fails exactly when no prefix of `piece` is a marker. */
  lemma MatchMarkerNone(piece: string)
    ensures MatchMarker(piece).None? <==> forall n: nat :: n <= |piece| ==> !IsMarker(piece[..n])
  {
    if MarkerLen(piece).None? {
      NoMarkerPrefix(piece);
    }
  }

  /** No marker starts at index `i` of `t`. */
  predicate NoMarkerAt(t: string, i: int) {
    0 <= i <= |t| ==> MarkerLen(t[i..]).None?
  }

  /** No position of `t` starts a marker. */
  predicate MarkerFree(t: string) {
    forall i :: 0 <= i <= |t| ==> NoMarkerAt(t, i)
  }

  /** Without a `[`, a string cannot hold a marker. */
  lemma NoBracketMarkerFree(t: string)
    requires '[' !in t
    ensures MarkerFree(t)
  {
    forall i | 0 <= i <= |t|
      ensures NoMarkerAt(t, i)
    {
      if i < |t| {
        assert t[i..][0] == t[i];
      }
    }
  }

  /** The result of `re.split(r"(\[P\.\d+\])", s)`, characterised: an odd
      number of pieces joining back to `s`, the odd-indexed ones markers and
      the even-indexed ones free of markers. */
  predicate WellSplit(s: string, pieces: seq<string>) {
    && |pieces| % 2 == 1
    && Concat(pieces) == s
    && (forall k :: 0 <= k < |pieces| && k % 2 == 1 ==> IsMarker(pieces[k]))
    && (forall k :: 0 <= k < |pieces| && k % 2 == 0 ==> MarkerFree(pieces[k]))
  }

  /** No marker starts inside `text` when `text` is followed by `rest`. */
  predicate MarkerFreeBefore(text: string, rest: string) {
    forall i :: 0 <= i < |text| ==> NoMarkerBefore(text, rest, i)
  }

  /** No marker starts at index `i` of `text` when `text` is followed by `rest`. */
  predicate NoMarkerBefore(text: string, rest: string, i: int) {
    0 <= i <= |text| ==> MarkerLen(text[i..] + rest).None?
  }

  /** Moving one marker-less position from `rest` into `text` keeps `text` free
      of markers. */
  lemma PendingExtend(text: string, rest: string)
    requires MarkerFreeBefore(text, rest)
    requires rest != [] && MarkerLen(rest).None?
    ensures MarkerFreeBefore(text + [rest[0]], rest[1..])
  {
    var text' := text + [rest[0]];
    forall i | 0 <= i < |text'|
      ensures NoMarkerBefore(text', rest[1..], i)
    {
      if i < |text| {
        assert NoMarkerBefore(text, rest, i);
        assert text'[i..] + rest[1..] == text[i..] + rest;
      } else {
        assert text'[i..] + rest[1..] == rest;
      }
    }
  }

  /** The regex scan: `text` holds the characters read since the last marker,
      `rest` the characters still to read. At each position the leftmost
      marker is taken; otherwise one character moves into the text piece. */
  function SplitFrom(rest: string, text: string): (r: seq<string>)
    ensures |r| % 2 == 1
    decreases |rest|
  {
    if rest == [] then [text]
    else
      match MarkerLen(rest)
      case Some(n) => [text, rest[..n]] + SplitFrom(rest[n..], "")
      case None => SplitFrom(rest[1..], text + [rest[0]])
  }

  /** `re.split(r"(\[P\.\d+\])", s)`: with one capturing group, the pieces
      are a text, then marker and text in turn. */
  function Split(s: string): (r: seq<string>)
    ensures |r| % 2 == 1
  {
    SplitFrom(s, "")
  }

  /** Text followed by a marker (or by nothing) is itself free of markers. */
  lemma PendingFree(text: string, rest: string)
    requires MarkerFreeBefore(text, rest)
    requires rest == [] || MarkerLen(rest).Some?
    ensures MarkerFree(text)
  {
    forall i | 0 <= i <= |text|
      ensures NoMarkerAt(text, i)
    {
      if i < |text| {
        assert NoMarkerBefore(text, rest, i);
        if rest == [] {
          assert text[i..] + rest == text[i..];
        } else if MarkerLen(text[i..]).Some? {
          MarkerLenExtend(text[i..], rest);
        }
      }
    }
  }

  /** Putting a text and the marker that starts `rest` in front of a
      well-formed split of what follows the marker. */
  lemma WellSplitCons(text: string, rest: string, n: nat, tail: seq<string>)
    requires MarkerFree(text)
    requires n <= |rest| && IsMarker(rest[..n])
    requires WellSplit(rest[n..], tail)
    ensures WellSplit(text + rest, [text, rest[..n]] + tail)
  {
    var marker := rest[..n];
    var pieces := [text, marker] + tail;
    ConcatAppend([text, marker], tail);
    assert Concat([text, marker]) == text + (marker + Concat([]));
    assert rest == marker + rest[n..];
    assert forall k :: 2 <= k < |pieces| ==> pieces[k] == tail[k - 2];
  }

  /** The scan splits well, provided the pending text starts no marker. */
  lemma {:induction false} SplitFromWellSplit(rest: string, text: string)
    requires MarkerFreeBefore(text, rest)
    ensures WellSplit(text + rest, SplitFrom(rest, text))
    decreases |rest|, 1
  {
    if rest == [] {
      PendingFree(text, rest);
      assert Concat([text]) == text + Concat([]);
      assert text + rest == text;
    } else if MarkerLen(rest).Some? {
      SplitFromWellSplitMarker(rest, text);
    } else {
      SplitFromWellSplitChar(rest, text);
    }
  }

  lemma {:induction false} SplitFromWellSplitMarker(rest: string, text: string)
    requires MarkerFreeBefore(text, rest)
    requires rest != [] && MarkerLen(rest).Some?
    ensures WellSplit(text + rest, SplitFrom(rest, text))
    decreases |rest|, 0
  {
    var n := MarkerLen(rest).value;
    SplitFromMarker(rest, text, n);
    PendingFree(text, rest);
    assert MarkerFreeBefore("", rest[n..]);
    SplitFromWellSplit(rest[n..], "");
    assert "" + rest[n..] == rest[n..];
    WellSplitCons(text, rest, n, SplitFrom(rest[n..], ""));
  }

  lemma {:induction false} SplitFromWellSplitChar(rest: string, text: string)
    requires MarkerFreeBefore(text, rest)
    requires rest != [] && MarkerLen(rest).None?
    ensures WellSplit(text + rest, SplitFrom(rest, text))
    decreases |rest|, 0
  {
    SplitFromChar(rest, text);
    PendingExtend(text, rest);
    SplitFromWellSplit(rest[1..], text + [rest[0]]);
    assert (text + [rest[0]]) + rest[1..] == text + rest;
  }

  /** `Split` splits well. */
  lemma SplitWellSplit(s: string)
    ensures WellSplit(s, Split(s))
  {
    assert MarkerFreeBefore("", s);
    SplitFromWellSplit(s, "");
    assert "" + s == s;
  }

  /** A well-formed split whose first piece is non-empty: no marker starts the
      input, and dropping the first character leaves a well-formed split. */
  lemma SplitTextFirst(rest: string, pieces: seq<string>)
    requires WellSplit(rest, pieces)
    requires pieces[0] != []
    ensures rest != [] && MarkerLen(rest).None?
    ensures WellSplit(rest[1..], [pieces[0][1..]] + pieces[1..])
  {
    var t0 := pieces[0];
    assert rest == t0 + Concat(pieces[1..]);
    assert MarkerFree(t0);
    assert MarkerLen(rest).None? by {
      if MarkerLen(rest).Some? {
        var n := MarkerLen(rest).value;
        if n <= |t0| {
          assert rest[..n] == t0[..n];
          assert NoMarkerAt(t0, 0);
          assert t0[0..] == t0;
          MarkerLenExact(t0, n);
        } else {
          assert Concat(pieces[1..]) == pieces[1] + Concat(pieces[2..]);
          assert rest[..n][|t0|] == pieces[1][0];
          MarkerHasOneBracket(rest[..n], |t0|);
        }
      }
    }
    var pieces' := [t0[1..]] + pieces[1..];
    assert MarkerFree(t0[1..]) by {
      forall i | 0 <= i <= |t0[1..]|
        ensures NoMarkerAt(t0[1..], i)
      {
        assert NoMarkerAt(t0, i + 1);
        assert t0[1..][i..] == t0[i + 1..];
      }
    }
    ConcatAppend([t0[1..]], pieces[1..]);
    assert Concat([t0[1..]]) == t0[1..] + Concat([]);
    assert forall k :: 1 <= k < |pieces'| ==> pieces'[k] == pieces[k];
  }

  /** A well-formed split of a non-empty input whose first piece is empty:
      the input starts with the marker `pieces[1]`, and the rest of the pieces
      split what follows it. */
  lemma SplitMarkerFirst(rest: string, pieces: seq<string>)
    requires WellSplit(rest, pieces)
    requires pieces[0] == [] && rest != []
    ensures |pieces| >= 3 && |pieces[1]| <= |rest|
    ensures MarkerLen(rest) == Some(|pieces[1]|) && rest[..|pieces[1]|] == pieces[1]
    ensures WellSplit(rest[|pieces[1]|..], pieces[2..])
  {
    assert rest == Concat(pieces[1..]);
    assert |pieces| >= 3;
    var m := pieces[1];
    WellSplitDropPair(rest, pieces);
    assert rest == m + Concat(pieces[2..]);
    assert rest[..|m|] == m;
    MarkerLenExact(rest, |m|);
    assert rest[|m|..] == Concat(pieces[2..]);
  }

  /** Dropping the first text and marker of a well-formed split leaves a
      well-formed split of the rest of the input. */
  lemma WellSplitDropPair(s: string, pieces: seq<string>)
    requires WellSplit(s, pieces) && |pieces| >= 3
    ensures s == pieces[0] + (pieces[1] + Concat(pieces[2..]))
    ensures WellSplit(Concat(pieces[2..]), pieces[2..])
  {
    var tail := pieces[2..];
    assert pieces[1..][1..] == tail;
    assert Concat(pieces) == pieces[0] + Concat(pieces[1..]);
    assert Concat(pieces[1..]) == pieces[1] + Concat(tail);
    assert forall k :: 0 <= k < |tail| ==> tail[k] == pieces[k + 2];
  }

  /** One step of the scan where no marker starts. */
  lemma SplitFromChar(rest: string, text: string)
    requires rest != [] && MarkerLen(rest).None?
    ensures SplitFrom(rest, text) == SplitFrom(rest[1..], text + [rest[0]])
  {
  }

  /** One step of the scan where a marker of length `n` starts. */
  lemma SplitFromMarker(rest: string, text: string, n: nat)
    requires rest != [] && MarkerLen(rest) == Some(n)
    ensures SplitFrom(rest, text) == [text, rest[..n]] + SplitFrom(rest[n..], "")
  {
  }

  /** The scan continues a decomposition of the remaining input: whatever
      well-formed split `rest` has, the scan produces it (with the pending
      text in front of its first piece). */
  lemma {:induction false} SplitFromUnique(rest: string, text: string, pieces: seq<string>)
    requires WellSplit(rest, pieces)
    ensures SplitFrom(rest, text) == [text + pieces[0]] + pieces[1..]
    decreases |rest|, 1
  {
    if rest == [] {
      assert rest == pieces[0] + Concat(pieces[1..]);
      assert |pieces| == 1;
      assert text + pieces[0] == text;
    } else if pieces[0] != [] {
      SplitFromUniqueText(rest, text, pieces);
    } else {
      SplitFromUniqueMarker(rest, text, pieces);
    }
  }

  lemma {:induction false} SplitFromUniqueText(rest: string, text: string, pieces: seq<string>)
    requires WellSplit(rest, pieces)
    requires pieces[0] != []
    ensures SplitFrom(rest, text) == [text + pieces[0]] + pieces[1..]
    decreases |rest|, 0
  {
    var t0 := pieces[0];
    SplitTextFirst(rest, pieces);
    SplitFromChar(rest, text);
    var text' := text + [rest[0]];
    var pieces' := [t0[1..]] + pieces[1..];
    SplitFromUnique(rest[1..], text', pieces');
    assert pieces'[1..] == pieces[1..];
    assert rest == t0 + Concat(pieces[1..]);
    assert text' + t0[1..] == text + t0;
  }

  lemma {:induction false} SplitFromUniqueMarker(rest: string, text: string, pieces: seq<string>)
    requires WellSplit(rest, pieces)
    requires pieces[0] == [] && rest != []
    ensures SplitFrom(rest, text) == [text + pieces[0]] + pieces[1..]
    decreases |rest|, 0
  {
    SplitMarkerFirst(rest, pieces);
    var m := pieces[1];
    var tail := pieces[2..];
    SplitFromMarker(rest, text, |m|);
    SplitFromUnique(rest[|m|..], "", tail);
    calc {
      SplitFrom(rest, text);
      [text, m] + SplitFrom(rest[|m|..], "");
      [text, m] + ([[] + tail[0]] + tail[1..]);
      { assert [] + tail[0] == tail[0]; assert [tail[0]] + tail[1..] == tail; }
      [text, m] + tail;
      { assert text + pieces[0] == text; }
      [text + pieces[0]] + pieces[1..];
    }
  }

  /** `Split` is the only well-formed split: together with `Split`'s own
      contract, `Split(s) == pieces` exactly when `WellSplit(s, pieces)`. */
  lemma SplitUnique(s: string, pieces: seq<string>)
    requires WellSplit(s, pieces)
    ensures Split(s) == pieces
  {
    SplitFromUnique(s, "", pieces);
    assert "" + pieces[0] == pieces[0];
    assert [pieces[0]] + pieces[1..] == pieces;
  }

  /** A document without markers is one text piece. */
  lemma SplitMarkerFree(s: string)
    ensures MarkerFree(s) <==> Split(s) == [s]
  {
    SplitWellSplit(s);
    if MarkerFree(s) {
      assert Concat([s]) == s + Concat([]);
      SplitUnique(s, [s]);
    }
  }

  function DigitValue(c: char): (v: nat)
    requires IsDigit(c)
    ensures v <= 9
  {
    (c as int) - ('0' as int)
  }

  /** The value of a string of decimal digits, most significant first. */
  function DecimalValue(ds: string): nat
    requires AllDigits(ds)
  {
    if ds == [] then 0 else 10 * DecimalValue(ds[..|ds| - 1]) + DigitValue(ds[|ds| - 1])
  }

  /** `k` digits spell a number below `10^k`. */
  lemma {:induction false} DecimalValueBound(ds: string)
    requires AllDigits(ds)
    ensures DecimalValue(ds) < Pow10(|ds|)
    decreases |ds|
  {
    if ds != [] {
      DecimalValueBound(ds[..|ds| - 1]);
    }
  }

  /** CPython's default cap (3.11 and later, and the 3.7-3.10 security
      releases) on the number of digits `int()` converts from a decimal
      string; leading zeros count towards it. */
  const IntMaxStrDigits: nat := 4300

  /** The `ValueError` `int()` raises past the cap, with the digit count. */
  datatype ValueError = TooManyDigits(digits: nat)

  /** Python's `int(digits)` on a string of decimal digits: it raises when
      there are more digits than the cap, and otherwise returns a number below
      `10^k` for `k` digits, 0 exactly when every digit is `0`. */
  function ParseInt(ds: string): (r: Result<nat, ValueError>)
    requires AllDigits(ds)
    ensures r.Success? <==> |ds| <= IntMaxStrDigits
    ensures r.Failure? ==> r.error == TooManyDigits(|ds|)
    ensures r.Success? ==> r.value < Pow10(|ds|)
    ensures r.Success? ==> (r.value == 0 <==> forall k :: 0 <= k < |ds| ==> ds[k] == '0')
  {
    if |ds| > IntMaxStrDigits then Failure(TooManyDigits(|ds|))
    else
      DecimalValueBound(ds);
      ZeroValue(ds);
      Success(DecimalValue(ds))
  }

  /** The shortest decimal spelling of `n`, as `str(n)` writes it. */
  function ToDecimal(n: nat): (ds: string)
    ensures AllDigits(ds)
    ensures |ds| >= 1
  {
    var last := ['0' + (n % 10) as char];
    if n < 10 then last else ToDecimal(n / 10) + last
  }

  function Pow10(k: nat): (p: nat)
    ensures p >= 1
  {
    if k == 0 then 1 else 10 * Pow10(k - 1)
  }

  lemma {:induction false} Pow10AtLeastTen(k: nat)
    requires k >= 1
    ensures Pow10(k) >= 10
  {
    if k > 1 {
      Pow10AtLeastTen(k - 1);
    }
  }

  /** `str(n)` has at most `k` digits exactly when `n < 10^k`. */
  lemma {:induction false} ToDecimalLength(n: nat, k: nat)
    requires k >= 1
    ensures |ToDecimal(n)| <= k <==> n < Pow10(k)
    decreases n
  {
    Pow10AtLeastTen(k);
    if n >= 10 {
      assert |ToDecimal(n)| == |ToDecimal(n / 10)| + 1;
      if k > 1 {
        ToDecimalLength(n / 10, k - 1);
        var p := Pow10(k - 1);
        assert n == 10 * (n / 10) + n % 10;
        assert n / 10 < p ==> n < 10 * p;
        assert n / 10 >= p ==> n >= 10 * p;
      }
    }
  }

  /** The digits of `str(n)` spell `n`. */
  lemma {:induction false} ToDecimalValue(n: nat)
    ensures DecimalValue(ToDecimal(n)) == n
  {
    var ds := ToDecimal(n);
    if n >= 10 {
      ToDecimalValue(n / 10);
      assert ds[..|ds| - 1] == ToDecimal(n / 10);
    }
  }

  /** `int(str(n)) == n`, as long as `str(n)` stays within the digit cap,
      which is exactly when `n < 10^4300`; past it `int()` raises. */
  lemma DecimalRoundTrip(n: nat)
    ensures DecimalValue(ToDecimal(n)) == n
    ensures ParseInt(ToDecimal(n)).Success? <==> n < Pow10(IntMaxStrDigits)
    ensures ParseInt(ToDecimal(n)).Success? ==> ParseInt(ToDecimal(n)).value == n
  {
    ToDecimalValue(n);
    ToDecimalLength(n, IntMaxStrDigits);
  }

  /** Leading zeros do not change the value: `int("007") == 7`; but they
      count towards the digit cap, so one more zero can make `int()` raise. */
  lemma {:induction false} LeadingZero(ds: string)
    requires AllDigits(ds)
    ensures AllDigits(['0'] + ds)
    ensures DecimalValue(['0'] + ds) == DecimalValue(ds)
    ensures ParseInt(['0'] + ds).Failure? <==> |ds| >= IntMaxStrDigits
    ensures ParseInt(['0'] + ds).Success? ==> ParseInt(['0'] + ds) == ParseInt(ds)
    decreases |ds|
  {
    var zs := ['0'] + ds;
    if ds != [] {
      assert zs[..|zs| - 1] == ['0'] + ds[..|ds| - 1];
      LeadingZero(ds[..|ds| - 1]);
    }
  }

  /** The digits spell zero exactly when every one of them is `0`. */
  lemma {:induction false} ZeroValue(ds: string)
    requires AllDigits(ds)
    ensures DecimalValue(ds) == 0 <==> forall k :: 0 <= k < |ds| ==> ds[k] == '0'
    decreases |ds|
  {
    if ds != [] {
      var init := ds[..|ds| - 1];
      ZeroValue(init);
      assert forall k :: 0 <= k < |init| ==> init[k] == ds[k];
    }
  }

  /** The page number a piece names: the value of the digits when the marker
      pattern matches it, and 0 for any other piece. */
  function PageValue(piece: string): (v: nat)
    ensures MatchMarker(piece).None? ==> v == 0
    ensures MatchMarker(piece).Some? ==>
              (v == 0 <==> forall k :: 0 <= k < |MatchMarker(piece).value| ==> MatchMarker(piece).value[k] == '0')
  {
    match MatchMarker(piece)
    case Some(digits) =>
      ZeroValue(digits);
      DecimalValue(digits)
    case None => 0
  }

  /** The marker piece for the digits `ds`. */
  function MarkerText(ds: string): string {
    "[P." + ds + "]"
  }

  /** The marker pattern matches the marker for `ds` as a whole, with `ds` as
      its digit group. */
  lemma MarkerTextMatches(ds: string)
    requires |ds| >= 1 && AllDigits(ds)
    ensures IsMarker(MarkerText(ds))
    ensures MatchMarker(MarkerText(ds)) == Some(ds)
    ensures PageValue(MarkerText(ds)) == DecimalValue(ds)
  {
    var m := MarkerText(ds);
    assert m[..3] == "[P." && m[3..|m| - 1] == ds;
    assert m[..|m|] == m;
    MarkerLenExact(m, |m|);
  }

  /** The marker `[P.<n>]` a document writes for page `n`. */
  function MarkerFor(n: nat): (m: string)
    ensures IsMarker(m)
  {
    MarkerTextMatches(ToDecimal(n));
    MarkerText(ToDecimal(n))
  }

  /** Reading back the marker written for page `n` gives page `n`; `int()`
      accepts its digits exactly when `n < 10^4300`. */
  lemma MarkerRoundTrip(n: nat)
    ensures MatchMarker(MarkerFor(n)) == Some(ToDecimal(n))
    ensures PageValue(MarkerFor(n)) == n
    ensures ParseInt(ToDecimal(n)).Success? <==> n < Pow10(IntMaxStrDigits)
  {
    MarkerTextMatches(ToDecimal(n));
    DecimalRoundTrip(n);
  }
}

=== FILE: results.dfy ===
/** Failure-carrying values used in place of Python's `None` and exceptions. */
module Results {

  /** A value that may be absent, like an `Optional` in Python. */
  datatype Option<+T> = None | Some(value: T)

  /** The outcome of an operation that either returns a value or raises. */
  datatype Result<+R, +E> = Success(value: R) | Failure(error: E)
}

=== FILE: retrieval.dfy ===
/** The result assembly of `search_faiss_with_cost`: the ids the vector index
    returns are looked up in the metadata list, keeping `chunks[idx]` for
    every `idx < len(chunks)`. The ids are arbitrary integers (the index pads
    with `-1` when it has fewer vectors than requested), and Python's list
    indexing counts negative indices from the end and raises `IndexError`
    below `-len(chunks)`. */
module Retrieval {
  import opened Results

  /** The `IndexError` raised by `chunks[idx]`, with the offending index. */
  datatype LookupError = IndexError(index: int)

  /** The position Python's `xs[i]` reads when `-n <= i < n`. */
  function Position(i: int, n: nat): int {
    if i >= 0 then i else n + i
  }

  /** Python's `xs[i]` on a list. */
  function PyIndex<T>(xs: seq<T>, i: int): (r: Result<T, LookupError>)
    ensures r.Success? <==> -|xs| <= i < |xs|
    ensures r.Success? ==> r.value == xs[if i >= 0 then i else |xs| + i]
    ensures r.Failure? ==> r.error == IndexError(i)
  {
    if -|xs| <= i < |xs| then Success(xs[Position(i, |xs|)]) else Failure(IndexError(i))
  }

  /** What one id contributes: nothing when the bounds check `idx < len(chunks)`
      fails, otherwise `chunks[idx]`, which may raise. In range an id
      contributes `chunks[idx]`; at or past the end it is dropped without
      error; from `-len` to `-1` it contributes `chunks[len + idx]`, so `-1`
      is the last chunk; below `-len` it raises. */
  function Pick<T>(id: int, chunks: seq<T>): (r: Result<seq<T>, LookupError>)
    ensures 0 <= id < |chunks| ==> r == Success([chunks[id]])
    ensures id >= |chunks| ==> r == Success([])
    ensures -|chunks| <= id < 0 ==> r == Success([chunks[|chunks| + id]])
    ensures id < -|chunks| ==> r == Failure(IndexError(id))
  {
    if id >= |chunks| then Success([])
    else
      match PyIndex(chunks, id)
      case Success(c) => Success([c])
      case Failure(e) => Failure(e)
  }

  /** The loop over the ids, as a function of the ids seen so far: the first
      `IndexError` ends it, otherwise the picks are concatenated in id order. */
  function Collected<T>(ids: seq<int>, chunks: seq<T>): Result<seq<T>, LookupError>
    decreases |ids|
  {
    if ids == [] then Success([])
    else
      match Collected(ids[..|ids| - 1], chunks)
      case Failure(e) => Failure(e)
      case Success(before) =>
        match Pick(ids[|ids| - 1], chunks)
        case Failure(e) => Failure(e)
        case Success(p) => Success(before + p)
  }

  /** The result-assembly loop: it visits the ids in the order the index
      returned them, appends each id's pick, and stops at the first
      `IndexError`. */
  method CollectResults<T>(ids: seq<int>, chunks: seq<T>) returns (r: Result<seq<T>, LookupError>)
    ensures r == Collected(ids, chunks)
    ensures r.Failure? <==> exists k :: 0 <= k < |ids| && ids[k] < -|chunks|
    ensures r.Success? ==> |r.value| <= |ids|
  {
    var results: seq<T> := [];
    var i := 0;
    while i < |ids|
      invariant 0 <= i <= |ids|
      invariant Collected(ids[..i], chunks) == Success(results)
      invariant |results| <= i
    {
      var idx := ids[i];
      assert ids[..i + 1][..i] == ids[..i];
      if idx < |chunks| {
        if idx < -|chunks| {
          assert Collected(ids[..i + 1], chunks) == Failure(IndexError(idx));
          CollectedFailureStays(ids[..i + 1], ids[i + 1..], chunks);
          assert ids[..i + 1] + ids[i + 1..] == ids;
          CollectedFails(ids, chunks);
          return Failure(IndexError(idx));
        }
        assert Pick(idx, chunks) == Success([chunks[Position(idx, |chunks|)]]);
        results := results + [chunks[Position(idx, |chunks|)]];
      } else {
        assert Pick(idx, chunks) == Success([]);
        assert results + [] == results;
      }
      assert ids[..i + 1][i] == idx;
      i := i + 1;
    }
    assert ids[..i] == ids;
    CollectedFails(ids, chunks);
    return Success(results);
  }

  /** A failure in a prefix of the ids is the failure of the whole loop. */
  lemma {:induction false} CollectedFailureStays<T>(a: seq<int>, b: seq<int>, chunks: seq<T>)
    requires Collected(a, chunks).Failure?
    ensures Collected(a + b, chunks) == Collected(a, chunks)
    decreases |b|
  {
    if b != [] {
      var ab := a + b;
      assert ab[..|ab| - 1] == a + b[..|b| - 1];
      CollectedFailureStays(a, b[..|b| - 1], chunks);
    } else {
      assert a + b == a;
    }
  }

  /** The loop fails exactly when some id is below `-len(chunks)`, and then
      with the first such id. */
  lemma {:induction false} CollectedFails<T>(ids: seq<int>, chunks: seq<T>)
    ensures Collected(ids, chunks).Failure? <==> exists k :: 0 <= k < |ids| && ids[k] < -|chunks|
    ensures Collected(ids, chunks).Failure? ==>
              exists k :: && 0 <= k < |ids| && ids[k] < -|chunks|
                          && Collected(ids, chunks).error == IndexError(ids[k])
                          && forall j :: 0 <= j < k ==> ids[j] >= -|chunks|
    decreases |ids|
  {
    if ids != [] {
      var init := ids[..|ids| - 1];
      CollectedFails(init, chunks);
      assert forall j :: 0 <= j < |init| ==> init[j] == ids[j];
    }
  }

  /** Results keep the order of the ids: the loop over `a + b` is the loop
      over `a` followed by the loop over `b`. */
  lemma {:induction false} CollectedAppend<T>(a: seq<int>, b: seq<int>, chunks: seq<T>)
    ensures Collected(a + b, chunks) ==
            match Collected(a, chunks)
            case Failure(e) => Failure(e)
            case Success(ra) =>
              match Collected(b, chunks)
              case Failure(e) => Failure(e)
              case Success(rb) => Success(ra + rb)
    decreases |b|
  {
    if b == [] {
      assert a + b == a;
      if Collected(a, chunks).Success? {
        assert Collected(a, chunks).value + [] == Collected(a, chunks).value;
      }
    } else {
      var ab := a + b;
      var b' := b[..|b| - 1];
      assert ab[..|ab| - 1] == a + b';
      assert ab[|ab| - 1] == b[|b| - 1];
      CollectedAppend(a, b', chunks);
      if Collected(a, chunks).Success? && Collected(b', chunks).Success? && Pick(b[|b| - 1], chunks).Success? {
        var ra, rb', p := Collected(a, chunks).value, Collected(b', chunks).value, Pick(b[|b| - 1], chunks).value;
        assert ra + rb' + p == ra + (rb' + p);
      }
    }
  }

  /** One more id after a successful loop appends its pick. */
  lemma CollectedSnoc<T>(a: seq<int>, id: int, chunks: seq<T>)
    requires Collected(a, chunks).Success? && Pick(id, chunks).Success?
    ensures Collected(a + [id], chunks) == Success(Collected(a, chunks).value + Pick(id, chunks).value)
  {
    assert (a + [id])[..|a|] == a;
  }

  /** The loop over a single id. */
  lemma CollectedSingle<T>(id: int, chunks: seq<T>)
    ensures Collected([id], chunks) == Pick(id, chunks)
  {
    assert [id][..0] == [];
    if Pick(id, chunks).Success? {
      assert [] + Pick(id, chunks).value == Pick(id, chunks).value;
    }
  }

  /** Every id contributes at most one result. */
  lemma {:induction false} CollectedLength<T>(ids: seq<int>, chunks: seq<T>)
    ensures Collected(ids, chunks).Success? ==> |Collected(ids, chunks).value| <= |ids|
    decreases |ids|
  {
    if ids != [] {
      CollectedLength(ids[..|ids| - 1], chunks);
    }
  }

  /** A padding id `-1` after a successful loop appends the last chunk. */
  lemma PaddingAppendsLast<T>(ids: seq<int>, chunks: seq<T>)
    requires |chunks| >= 1 && Collected(ids, chunks).Success?
    ensures Collected(ids + [-1], chunks) == Success(Collected(ids, chunks).value + [chunks[|chunks| - 1]])
  {
    assert Pick(-1, chunks) == Success([chunks[|chunks| - 1]]);
    CollectedSnoc(ids, -1, chunks);
  }

  /** When the index returns the last chunk's id and then pads, the last
      chunk appears twice in the results. */
  lemma PaddingRepeatsLast<T>(chunks: seq<T>)
    requires |chunks| >= 1
    ensures Collected([|chunks| - 1] + [-1], chunks) == Success([chunks[|chunks| - 1]] + [chunks[|chunks| - 1]])
  {
    CollectedSingle(|chunks| - 1, chunks);
    PaddingAppendsLast([|chunks| - 1], chunks);
  }

  /** With empty metadata, the padding id `-1` raises `IndexError`. */
  lemma PaddingOnEmptyRaises<T>(chunks: seq<T>)
    requires chunks == []
    ensures Collected([-1], chunks) == Failure(IndexError(-1))
  {
    CollectedSingle(-1, chunks);
  }
}

=== FILE: text.dfy ===
/** String operations of Python's `str` that the tool relies on: `isspace`,
    `strip`, `"".join`, `endswith` and `replace`, with the substring search
    `replace` performs. Strings are sequences of Unicode scalar values. */
module Text {

  /** Python's `str.isspace()` on one character: the ASCII controls
      TAB..CR and FS..US, space, NEL, NBSP, OGHAM SPACE MARK, the
      EN QUAD..HAIR SPACE block, LINE and PARAGRAPH SEPARATOR, NARROW NBSP,
      MEDIUM MATHEMATICAL SPACE and IDEOGRAPHIC SPACE. */
  predicate IsSpace(c: char) {
    var n := c as int;
    || (0x09 <= n <= 0x0D)
    || (0x1C <= n <= 0x20)
    || n == 0x85
    || n == 0xA0
    || n == 0x1680
    || (0x2000 <= n <= 0x200A)
    || n == 0x2028
    || n == 0x2029
    || n == 0x202F
    || n == 0x205F
    || n == 0x3000
  }

  predicate AllSpace(s: string) {
    forall k :: 0 <= k < |s| ==> IsSpace(s[k])
  }

  /** Neither end of `s` is whitespace (vacuously true of the empty string). */
  predicate NoEdgeSpace(s: string) {
    s == [] || (!IsSpace(s[0]) && !IsSpace(s[|s| - 1]))
  }

  /** `s.lstrip()`: drops the longest all-whitespace prefix. */
  function TrimStart(s: string): string {
    if |s| > 0 && IsSpace(s[0]) then TrimStart(s[1..]) else s
  }

  /** `TrimStart` removes a whitespace prefix and stops at the first other
      character. */
  lemma {:induction false} TrimStartSpec(s: string)
    ensures var r := TrimStart(s);
            && |r| <= |s|
            && r == s[|s| - |r|..]
            && AllSpace(s[..|s| - |r|])
            && (r == [] || !IsSpace(r[0]))
    decreases |s|
  {
    if |s| > 0 && IsSpace(s[0]) {
      TrimStartSpec(s[1..]);
      var r := TrimStart(s);
      assert s[1..][..|s| - 1 - |r|] == s[1..|s| - |r|];
      assert forall k :: 1 <= k < |s| - |r| ==> s[k] == s[1..][k - 1];
    } else {
      assert s[..0] == [];
    }
  }

  /** `s.rstrip()`: drops the longest all-whitespace suffix. */
  function TrimEnd(s: string): string {
    if |s| > 0 && IsSpace(s[|s| - 1]) then TrimEnd(s[..|s| - 1]) else s
  }

  /** `TrimEnd` removes a whitespace suffix and stops at the last other
      character. */
  lemma {:induction false} TrimEndSpec(s: string)
    ensures var r := TrimEnd(s);
            && |r| <= |s|
            && r == s[..|r|]
            && AllSpace(s[|r|..])
            && (r == [] || !IsSpace(r[|r| - 1]))
    decreases |s|
  {
    if |s| > 0 && IsSpace(s[|s| - 1]) {
      var init := s[..|s| - 1];
      TrimEndSpec(init);
      var r := TrimEnd(s);
      assert init[..|r|] == s[..|r|];
      assert forall k :: |r| <= k < |s| - 1 ==> s[k] == init[k];
    } else {
      assert s[|s|..] == [];
    }
  }

  /** `s.strip()`: the infix of `s` left after dropping whitespace at both ends. */
  function Strip(s: string): (r: string)
    ensures NoEdgeSpace(r)
    ensures r == [] <==> AllSpace(s)
    ensures |r| <= |s|
  {
    var t := TrimStart(s);
    var r := TrimEnd(t);
    TrimStartSpec(s);
    TrimEndSpec(t);
    assert r == [] ==> AllSpace(s) by {
      if r == [] {
        assert s == s[..|s| - |t|] + t;
        assert AllSpace(t) by { assert t[|r|..] == t; }
      }
    }
    assert r != [] ==> !IsSpace(r[0]) by {
      if r != [] { assert r[0] == t[0]; }
    }
    r
  }

  /** `Strip` removes exactly whitespace: `s` is that whitespace, then the
      result, then more whitespace. */
  lemma StripIsInfix(s: string) returns (i: nat)
    ensures i + |Strip(s)| <= |s|
    ensures Strip(s) == s[i..i + |Strip(s)|]
    ensures AllSpace(s[..i]) && AllSpace(s[i + |Strip(s)|..])
  {
    var t := TrimStart(s);
    var r := Strip(s);
    TrimStartSpec(s);
    i := |s| - |t|;
    TrimEndSpec(t);
    assert t == s[i..];
    assert r == t[..|r|];
    assert s[i + |r|..] == t[|r|..];
  }

  /** Stripping twice is the same as stripping once. */
  lemma StripIdempotent(s: string)
    ensures Strip(Strip(s)) == Strip(s)
  {
    var r := Strip(s);
    if r != [] {
      TrimStartSpec(r);
      TrimEndSpec(r);
      assert TrimStart(r) == r;
      assert TrimEnd(r) == r;
    }
  }

  /** `"".join(pieces)`: the pieces in order, nothing between them. */
  function Concat(pieces: seq<string>): (r: string)
    ensures pieces == [] ==> r == []
  {
    if pieces == [] then [] else pieces[0] + Concat(pieces[1..])
  }

  /** The join is empty exactly when every piece is, starts with the first
      piece and ends with the last. */
  lemma {:induction false} ConcatSpec(pieces: seq<string>)
    ensures Concat(pieces) == [] <==> forall k :: 0 <= k < |pieces| ==> pieces[k] == []
    ensures pieces != [] ==> pieces[0] <= Concat(pieces)
    ensures pieces != [] ==> EndsWith(Concat(pieces), pieces[|pieces| - 1])
    decreases |pieces|
  {
    if pieces != [] {
      var rest := pieces[1..];
      ConcatSpec(rest);
      assert forall k :: 1 <= k < |pieces| ==> pieces[k] == rest[k - 1];
      if rest == [] {
        assert Concat(pieces) == pieces[0];
      } else {
        assert pieces[|pieces| - 1] == rest[|rest| - 1];
      }
    }
  }

  /** Joining distributes over sequence concatenation. */
  lemma {:induction false} ConcatAppend(a: seq<string>, b: seq<string>)
    ensures Concat(a + b) == Concat(a) + Concat(b)
    decreases |a|
  {
    if a == [] {
      assert a + b == b;
    } else {
      assert (a + b)[1..] == a[1..] + b;
      ConcatAppend(a[1..], b);
    }
  }

  /** Joining a single piece gives that piece. */
  lemma ConcatSingle(p: string)
    ensures Concat([p]) == p
  {
    assert [p][1..] == [];
  }

  /** Appending one piece to a buffer appends its text to the join. */
  lemma ConcatSnoc(a: seq<string>, p: string)
    ensures Concat(a + [p]) == Concat(a) + p
  {
    ConcatAppend(a, [p]);
    ConcatSingle(p);
  }

  /** Python's `s.endswith(suffix)`: `s` is some string followed by
      `suffix`. */
  predicate EndsWith(s: string, suffix: string)
    ensures EndsWith(s, suffix) <==> exists p :: s == p + suffix
  {
    |suffix| <= |s| && s[..|s| - |suffix|] + suffix == s
  }

  /** `pat` occurs in `s` starting at index `i`. */
  predicate OccursAt(s: string, pat: string, i: nat) {
    i + |pat| <= |s| && s[i..i + |pat|] == pat
  }

  /** `pat` occurs somewhere in `s`. */
  predicate Contains(s: string, pat: string) {
    exists i: nat | i + |pat| <= |s| :: OccursAt(s, pat, i)
  }

  /** An occurrence in `s[1..]` is an occurrence in `s`, one place later. */
  lemma OccursInTail(s: string, pat: string, i: nat)
    requires |s| > 0
    ensures OccursAt(s[1..], pat, i) <==> OccursAt(s, pat, i + 1)
  {
    if i + 1 + |pat| <= |s| {
      assert s[1..][i..i + |pat|] == s[i + 1..i + 1 + |pat|];
    }
  }

  lemma ContainsTail(s: string, pat: string)
    requires |s| > 0
    ensures Contains(s[1..], pat) ==> Contains(s, pat)
  {
    if Contains(s[1..], pat) {
      var i: nat :| OccursAt(s[1..], pat, i);
      OccursInTail(s, pat, i);
    }
  }

  /** `s.replace(pat, rep)`: scanning left to right, every non-overlapping
      occurrence of the non-empty `pat` is replaced by `rep`. Each replacement
      changes the length by `|rep| - |pat|`, so a longer replacement never
      shortens the string and a shorter one never lengthens it. */
  function ReplaceAll(s: string, pat: string, rep: string): (r: string)
    requires pat != []
    ensures |pat| <= |rep| ==> |s| <= |r|
    ensures |rep| <= |pat| ==> |r| <= |s|
    decreases |s|
  {
    if |s| < |pat| then s
    else if s[..|pat|] == pat then rep + ReplaceAll(s[|pat|..], pat, rep)
    else [s[0]] + ReplaceAll(s[1..], pat, rep)
  }

  /** A string without an occurrence of `pat` is left unchanged. */
  lemma {:induction false} ReplaceAllAbsent(s: string, pat: string, rep: string)
    requires pat != []
    requires !Contains(s, pat)
    ensures ReplaceAll(s, pat, rep) == s
    decreases |s|
  {
    if |s| >= |pat| {
      assert !OccursAt(s, pat, 0);
      ContainsTail(s, pat);
      ReplaceAllAbsent(s[1..], pat, rep);
    }
  }

  /** The first occurrence of `pat` is replaced, and scanning resumes right
      after it. */
  lemma {:induction false} ReplaceAllAtFirst(s: string, pat: string, rep: string, q: nat)
    requires pat != []
    requires OccursAt(s, pat, q)
    requires forall p: nat :: p < q ==> !OccursAt(s, pat, p)
    ensures ReplaceAll(s, pat, rep) == s[..q] + rep + ReplaceAll(s[q + |pat|..], pat, rep)
    decreases q, 1
  {
    if q == 0 {
      ReplaceAllAtStart(s, pat, rep);
      assert s[..q] + rep == rep;
    } else {
      ReplaceAllAtLaterFirst(s, pat, rep, q);
    }
  }

  lemma {:induction false} ReplaceAllAtLaterFirst(s: string, pat: string, rep: string, q: nat)
    requires pat != [] && q > 0
    requires OccursAt(s, pat, q)
    requires forall p: nat :: p < q ==> !OccursAt(s, pat, p)
    ensures ReplaceAll(s, pat, rep) == s[..q] + rep + ReplaceAll(s[q + |pat|..], pat, rep)
    decreases q, 0
  {
    var t := s[1..];
    assert !OccursAt(s, pat, 0);
    FirstOccurrenceInTail(s, pat, q);
    assert t[q - 1 + |pat|..] == s[q + |pat|..];
    ReplaceAllCopiesFirst(s, pat, rep);
    ReplaceAllAtFirst(t, pat, rep, q - 1);
    ConsPrefix(s, q, rep, ReplaceAll(s[q + |pat|..], pat, rep));
  }

  /** The first occurrence at `q > 0` is, in `s[1..]`, the first one at `q - 1`. */
  lemma FirstOccurrenceInTail(s: string, pat: string, q: nat)
    requires q > 0 && OccursAt(s, pat, q)
    requires forall p: nat :: p < q ==> !OccursAt(s, pat, p)
    ensures OccursAt(s[1..], pat, q - 1)
    ensures forall p: nat :: p < q - 1 ==> !OccursAt(s[1..], pat, p)
  {
    forall p: nat | p < q - 1
      ensures !OccursAt(s[1..], pat, p)
    {
      OccursInTail(s, pat, p);
    }
    OccursInTail(s, pat, q - 1);
  }

  /** Putting back the first character of `s` in front of a prefix of
      `s[1..]`. */
  lemma ConsPrefix(s: string, q: nat, rep: string, tail: string)
    requires 0 < q <= |s|
    ensures [s[0]] + (s[1..][..q - 1] + rep + tail) == s[..q] + rep + tail
  {
    assert [s[0]] + s[1..][..q - 1] == s[..q];
  }

  /** An occurrence at the start is replaced. */
  lemma ReplaceAllAtStart(s: string, pat: string, rep: string)
    requires pat != [] && OccursAt(s, pat, 0)
    ensures ReplaceAll(s, pat, rep) == rep + ReplaceAll(s[|pat|..], pat, rep)
  {
    assert s[..|pat|] == pat;
  }

  /** Without an occurrence at the start, the first character is copied. */
  lemma ReplaceAllCopiesFirst(s: string, pat: string, rep: string)
    requires pat != [] && |s| > 0
    requires !OccursAt(s, pat, 0)
    ensures ReplaceAll(s, pat, rep) == [s[0]] + ReplaceAll(s[1..], pat, rep)
  {
    if |s| < |pat| {
      ReplaceAllShort(s[1..], pat, rep);
      assert [s[0]] + s[1..] == s;
    }
  }

  /** A string shorter than `pat` is left unchanged. */
  lemma ReplaceAllShort(s: string, pat: string, rep: string)
    requires pat != [] && |s| < |pat|
    ensures ReplaceAll(s, pat, rep) == s
  {
  }

  /** A prefix that cannot start an occurrence of `pat` (it lacks `pat`'s
      first character) is copied unchanged. */
  lemma {:induction false} ReplaceAllSkipsPrefix(a: string, b: string, pat: string, rep: string)
    requires pat != []
    requires pat[0] !in a
    ensures ReplaceAll(a + b, pat, rep) == a + ReplaceAll(b, pat, rep)
    decreases |a|
  {
    if a == [] {
      assert a + b == b;
    } else {
      var s := a + b;
      if |s| >= |pat| {
        assert s[..|pat|] != pat by { assert s[..|pat|][0] == a[0]; }
        assert s[1..] == a[1..] + b;
        calc {
          ReplaceAll(s, pat, rep);
          [a[0]] + ReplaceAll(a[1..] + b, pat, rep);
          { ReplaceAllSkipsPrefix(a[1..], b, pat, rep); }
          [a[0]] + (a[1..] + ReplaceAll(b, pat, rep));
        }
      }
    }
  }

  /** When `pat` contains its first character nowhere else, and `x` holds no
      occurrence, `x + pat` becomes `x + rep`: no occurrence can straddle the
      boundary. */
  lemma {:induction false} ReplaceAllSuffix(x: string, pat: string, rep: string)
    requires pat != []
    requires forall k :: 0 < k < |pat| ==> pat[k] != pat[0]
    requires !Contains(x, pat)
    ensures ReplaceAll(x + pat, pat, rep) == x + rep
    decreases |x|
  {
    var s := x + pat;
    if x == [] {
      assert s == pat;
      ReplaceAllOfPattern(pat, rep);
    } else {
      NoOccurrenceAtJoin(x, pat);
      ReplaceAllCopiesFirst(s, pat, rep);
      ContainsTail(x, pat);
      assert s[1..] == x[1..] + pat;
      ReplaceAllSuffix(x[1..], pat, rep);
      assert [x[0]] + (x[1..] + rep) == x + rep;
    }
  }

  /** The pattern alone becomes the replacement. */
  lemma ReplaceAllOfPattern(pat: string, rep: string)
    requires pat != []
    ensures ReplaceAll(pat, pat, rep) == rep
  {
    assert pat[..|pat|] == pat && pat[|pat|..] == [];
    assert rep + [] == rep;
  }

  /** No occurrence of `pat` starts at the front of `x + pat` when `x` is
      non-empty and holds no occurrence, given that `pat` repeats its first
      character nowhere. */
  lemma NoOccurrenceAtJoin(x: string, pat: string)
    requires x != [] && pat != []
    requires forall k :: 0 < k < |pat| ==> pat[k] != pat[0]
    requires !Contains(x, pat)
    ensures !OccursAt(x + pat, pat, 0)
  {
    var s := x + pat;
    if |x| >= |pat| {
      assert s[..|pat|] == x[..|pat|];
      assert !OccursAt(x, pat, 0);
    } else {
      assert s[..|pat|][|x|] == pat[0];
    }
  }

  /** The position of the leftmost occurrence of `pat`, when there is one. */
  lemma FirstOccurrence(s: string, pat: string) returns (q: nat)
    requires Contains(s, pat)
    ensures OccursAt(s, pat, q)
    ensures forall p: nat :: p < q ==> !OccursAt(s, pat, p)
  {
    var i: nat :| OccursAt(s, pat, i);
    q := 0;
    while !OccursAt(s, pat, q)
      invariant q <= i
      invariant forall p: nat :: p < q ==> !OccursAt(s, pat, p)
      decreases i - q
    {
      q := q + 1;
    }
  }
}
